=== FILE: README.md ===
# A Dafny model of the Moray bus and its `jsSprintf`

This project models the core of `lib/bus.js`, the `MorayBus`. The bus is the one
place where a service talks to its Moray key-value store. It has two sides:

- **Read side.** Callers *subscribe* to a query on a bucket. `poll(now)` re-issues
  every subscription that is neither throttled nor still processing its previous
  results. A subscription can be converted to a *one-shot*: it is removed, and its
  `ondone` callback is called, after the next successful request issued *after*
  the conversion. `count` is built on top of one-shots.
- **Write side.** `putBatch` turns an array of `[bucket, key, value, options?]`
  records into a transaction. It claims each record identity `bucket/key`
  exclusively and pushes the transaction's id on the outgoing queue. `flush` then
  issues queued transactions while fewer than `maxPendingPuts` are in flight.
  When a write completes:
  - on success, the transaction is finalized (`txnFini`);
  - on a transient store error, it is retried after an exponential backoff;
  - on an `EtagConflictError` for a batch with a merge function, the conflicting
    record is re-fetched, merged and retried;
  - on anything else, it is finalized with the error.

It also models `lib/jsutil.js`:

- `jsSprintf`, with its `%%`, `%s` and `%d` directives and its error cases;
- `doPad`;
- the `jsError` constructor, whose message is the formatted text followed by the
  cause's message.

## How the model is built

- **Bus state.** The bus is an immutable `BusState.Bus`. Every event handler is a
  pure function from a state to a new state and a list of `Effect`s. An effect is
  what the handler asks the outside world to do:
  - create a client;
  - issue a `batchPut`;
  - fetch an object;
  - start a retry timer;
  - invoke a caller's callback.
- **Asynchrony.** Each asynchronous completion is its own event, for example
  `Writes.OnPutDone`, `Writes.OnConflictFetched`, `Writes.OnRetryTimer`,
  `Reads.OnClientConnect` and `Reads.OnPollSucceeded`.
- **Invariant.** `BusState.Inv` is the write side's invariant:
  - the in-flight counter counts the transactions in flight and stays within the cap;
  - the identity map and the transactions agree both ways;
  - the queue holds exactly the queued transactions, once each;
  - ids stay below their counters.
- **Preserving the invariant.** Each event that changes the write side has a
  `...KeepsInv` lemma.

| file | module | models |
|---|---|---|
| `wrappers.dfy` | `Wrappers` | `Option`, `Result` |
| `jsvalue.dfy` | `JsValues` | the JavaScript values the bus passes through, property lookup |
| `throttle.dfy` | `Throttles` | the `Throttler` behind `timePoll`, from its contract |
| `backoff.dfy` | `Backoff` | the retry delay of `txnRetry` |
| `transaction.dfy` | `Transactions` | `MorayBusTransaction`: record validation and identities |
| `busstate.dfy` | `BusState` | the bus, subscriptions, effects, `Inv` and its frame lemmas |
| `writes.dfy` | `Writes` | `putBatch`, `flush`, `txnPut`, `txnHandleError`, `txnRetry`, `txnFini` |
| `reads.dfy` | `Reads` | `connect`, `subscribe`, `oneshot`, `convertOneshot`, `unsubscribe`, `poll`, `pollOne`, `count` |
| `sprintf.dfy` | `Sprintf` | `jsSprintf`, `doPad`, `jsError` and its `toString` |
| `aswritten.dfy` | `AsWritten` | the bus's defects, reproduced with JavaScript's coercions, next to the corrected model |

`Writes` and `Reads` model what the code evidently intends. Where the code as
written does something else, `AsWritten` reproduces the written behaviour and a
lemma sets it against the corrected model (see "## Findings").

### Inputs that are parameters

- The clock is passed in: `now` for `poll`, and the ISO string `clock` for
  `flush`/`txnPut`.
- Whether a subscription's barrier still has pending work is passed in as the
  `busy` set.
- The enumeration order of `for (var id in ...)` is the `order` argument. Each
  subscription's outcome is shown not to depend on it (`Reads.PollPollsEachAlone`).
- The merge function is a Dafny function value.
- Callbacks are opaque `CallbackId`s; calling one is an `Invoke` or `Notify` effect.

### Queue order

The queue is pushed at its end and popped from its end, exactly as
`mb_putq.push`/`mb_putq.pop` do. The most recent write is therefore issued
first (`Writes.IssuePopsFromEnd`).

A completion does not flush the queue. A waiting write is issued by the next
`putBatch` or `flush`, as in the code.

## Model

| member | source | states |
|---|---|---|
| Backoff.RetryDelay | lib/bus.js:442-446 | The delay after the n-th failure is always between 100 and 10000 ms. It is 100·2^(n−1) ms for up to 7 failures and the 10000 ms cap from the 8th on (the overflow-free reading of the shift) |
| Backoff.RetryDelayTable | lib/bus.js:442-446 | The successive delays are 100, 200, 400, 800, 1600, 3200, 6400, then 10000 ms |
| Backoff.RetryDelayDoubles | lib/bus.js:442-446 | Below the cap, each further failure doubles the delay |
| Backoff.RetryDelayMonotone | lib/bus.js:438-446 | More failures never shorten the delay: the backoff never shrinks while retries go on indefinitely |
| Throttles.TooRecent | lib/bus.js:226-227 | A check that is refused leaves the throttle unchanged. A check that passes records `now` (assumed of the `Throttler`, see "Left out"). The first check always passes |
| Throttles.GateSpacing | lib/bus.js:226-227 | After a check passes at `now`, a later check is refused exactly when it comes before `now + timePoll` |
| Throttles.RefusalIsIdempotent | lib/bus.js:226-227 | Asking twice at the same instant gives the same verdict and the same throttle as asking once |
| Transactions.ParseRecord | lib/bus.js:522-537 | A record argument is accepted iff it is an array of 3 or 4 elements whose first two are strings. The built record has that bucket, key and value, options `rec[3] \|\| {}`, and identity `bucket + '/' + key` |
| Transactions.ParseRecords | lib/bus.js:522-538 | A list of records is accepted iff every element is, and then each built record corresponds to its element |
| Transactions.MakeTxn | lib/bus.js:501-539 | A batch is accepted iff it is a non-empty array of acceptable records. The transaction then has one record per element, no failures yet, and the caller's merge function and callback |
| Transactions.ThreeElementRecord | lib/bus.js:535 | A record given without options gets an empty options object |
| BusState.NewBus | lib/bus.js:41-64 | A new bus is disconnected, has no subscriptions, transactions or queue, and satisfies the invariant |
| BusState.ExclusiveOwnership | lib/bus.js:279-299 | Under the invariant, no record identity is held by two live transactions (no concurrent writes to one record) |
| Writes.Register | lib/bus.js:292-299 | Registration succeeds iff no identity of the batch is already held and none repeats within the batch; otherwise it fails with the concurrent-write assertion |
| Writes.RegisterBinds | lib/bus.js:292-299 | A successful registration adds exactly the batch's identities, each bound to the new transaction, and leaves every earlier binding as it was |
| Writes.PutBatch | lib/bus.js:287-304 | `putBatch` succeeds iff the batch is valid and none of its identities is held or repeated. It never touches the read side |
| Writes.PutBatchKeepsInv | lib/bus.js:287-304 | A successful `putBatch` preserves the invariant |
| Writes.PutBatchRegisters | lib/bus.js:290-301 | After `putBatch` the new transaction is live. Its record `i` is built from element `i` of the batch. It carries the caller's merge function and callback and has no failures. Each identity of the batch maps to it, and earlier bindings are untouched |
| Writes.PutBatchQueues | lib/bus.js:301-303 | The new id goes to the end of the queue. With no client nothing is issued; with a client and a free slot it is the first write issued |
| Writes.IssueOne | lib/bus.js:320-332 | One step of `flush`: the last queued id leaves the queue and goes in flight at `now`, the counter rises by one, and one `batchPut` is issued for it |
| Writes.Issue | lib/bus.js:318-323 | The `flush` loop issues as many writes as it takes the queue off its end. It stops only when the queue is empty or the counter has reached the cap |
| Writes.IssuePopsFromEnd | lib/bus.js:318-323 | Writes are issued from the end of the queue, most recently queued first |
| Writes.IssueMarksIssued | lib/bus.js:318-330 | The issuing loop puts in flight at `now` exactly the transactions whose writes it emits; every other transaction keeps its phase |
| Writes.Flush | lib/bus.js:306-324 | Without a client, `flush` changes nothing. With one, it changes only transaction phases, the queue's tail and the counter, and leaves the queue empty or the counter at the cap. Exactly the transactions whose writes it emits become in flight at `now` (`txnPut` sets `tx_issued`), and every other one keeps its phase |
| Writes.FlushIssuesPopped | lib/bus.js:318-330 | The transactions `flush` puts in flight at `now` are exactly those whose ids it takes off the end of the queue, so each one issued satisfies the in-flight precondition of its completion; every other transaction keeps its phase |
| Writes.FlushKeepsInv | lib/bus.js:306-324 | `flush` preserves the invariant and fills every free slot the queue can fill |
| Writes.Fini | lib/bus.js:456-474 | `txnFini` removes the transaction and every identity it holds, leaves all other transactions, bindings, the queue and the counter alone, and then calls the callback once with `(err, meta)` if there is one |
| Writes.FiniKeepsInv | lib/bus.js:456-474 | Finalizing a transaction that is not queued or in flight preserves the invariant |
| Writes.Retry | lib/bus.js:434-454 | `txnRetry` counts one more failure, makes the transaction wait `RetryDelay(nfails)` and starts a timer of that length. Nothing else changes |
| Writes.RetryKeepsInv | lib/bus.js:434-454 | Retrying a transaction that is not queued or in flight preserves the invariant |
| Writes.OnRetryTimer | lib/bus.js:447-453 | When the timer fires, the transaction's id goes back at the end of the queue and the transaction is queued again. Nothing else changes |
| Writes.OnRetryTimerKeepsInv | lib/bus.js:447-453 | The timer firing preserves the invariant |
| Writes.FindConflict | lib/bus.js:379-383 | The result is the first record whose bucket and key are the conflicting ones, or none when no record has them |
| Writes.HandleError | lib/bus.js:344-415 | Routes a failed write. Transient errors are retried. A non-transient error, a conflict without a merge function, or one not naming its record, finalizes with the error; so does a conflict on a record not in the batch. A conflict on a record in the batch moves the transaction to fetching that record and asks for it with `noCache` set. Nothing else changes |
| Writes.HandleErrorKeepsInv | lib/bus.js:344-415 | Routing an error preserves the invariant |
| Writes.Complete | lib/bus.js:333-335 | A completion gives back one unit of the counter and makes the transaction idle |
| Writes.CompleteKeepsInv | lib/bus.js:333-335 | A transaction in flight accounts for a unit of the counter, and a completion preserves the invariant |
| Writes.OnPutDone | lib/bus.js:333-341 | A `batchPut` completion frees one slot and leaves the queue. On success the transaction is finalized with `(null, meta)`. On failure the error is routed exactly as `txnHandleError` routes it from the idle transaction: retry, finalize with the error, or fetch the conflicting record uncached |
| Writes.OnPutDoneEffects | lib/bus.js:333-341 | The same in terms of the transaction in flight. On success it and its identities are gone and its callback gets `(null, meta)`. On a transient failure it keeps its identities, counts one more failure and waits the next backoff delay |
| Writes.OnPutDoneKeepsInv | lib/bus.js:333-341 | A `batchPut` completion preserves the invariant |
| Writes.Refreshed | lib/bus.js:411-412 | After a merge, the record keeps its identity, bucket and key. Its value is the merged value, its `etag` option is the fetched `_etag`, and its other options are unchanged. Options that are not an object are left as they are |
| Writes.OnConflictFetched | lib/bus.js:394-414 | A failed fetch finalizes with the fetch-failed annotation of the fetch error. A merge returning an error finalizes with the merge-failed annotation of the conflict. Otherwise the merged, re-predicated record replaces the old one and the transaction is retried as `txnRetry` retries it: one more failure, the backoff wait and its timer, with every other transaction, the callback, the merge function and the identity map unchanged |
| Writes.OnConflictFetchedKeepsInv | lib/bus.js:394-414 | The fetch's completion preserves the invariant |
| Reads.Connect | lib/bus.js:172-188 | `connect` does nothing iff a client exists or one is being created. Otherwise it creates exactly one client and marks the bus as connecting |
| Reads.ConnectIdempotent | lib/bus.js:177-180 | A second `connect` right after the first does nothing |
| Reads.ConnectKeepsInv | lib/bus.js:172-205 | `connect` preserves the invariant |
| Reads.OnClientConnect | lib/bus.js:199-204 | The connect event is accepted iff there is no client yet or it is the same client. It then installs the client and clears `connecting` |
| Reads.OnClientError | lib/bus.js:190-193 | A client error clears `connecting` and changes nothing else |
| Reads.ErrorAllowsReconnect | lib/bus.js:177-193 | After an error on a client that never connected, the next `connect` creates a new client |
| Reads.ConnectedNeverReconnects | lib/bus.js:177-204 | Once a client has connected, `connect` never creates another, even after an error event |
| Reads.NewSubscription | lib/bus.js:477-496 | A subscription is created iff the options are an object with numeric `timePoll` and `limit`. It polls that bucket with the caller's query, that limit and a fresh throttle with that interval, and starts with no one-shot hook |
| Reads.Subscribe | lib/bus.js:86-94 | `subscribe` registers under a fresh id exactly the subscription the constructor builds from its arguments (bucket, query, limit, throttle, record callback) and changes nothing else |
| Reads.SubscribeKeepsInv | lib/bus.js:86-94 | `subscribe` preserves the invariant and returns an id not in use |
| Reads.ConvertOneshot | lib/bus.js:118-128 | `convertOneshot` needs a registered id. It arms that subscription's hook and changes nothing else |
| Reads.Oneshot | lib/bus.js:102-106 | `oneshot` is a `subscribe` whose new subscription, built from the same arguments, has its hook armed with `ondone` |
| Reads.Unsubscribe | lib/bus.js:134-138 | `unsubscribe` succeeds iff the id is registered, and removes exactly that subscription |
| Reads.SubscribeThenUnsubscribe | lib/bus.js:134-138 | Unsubscribing a new subscription gives back the registry that was there before |
| Reads.PollSub | lib/bus.js:221-252 | A busy barrier skips the subscription without consulting the throttle. Otherwise a request is issued iff the throttle allows it, and the subscription keeps the throttle as that check leaves it (unchanged on a refusal). The request carries the bucket, limit, `noCache`, the filter for `now`, the record callback and the hook armed at this moment |
| Reads.PollSpacing | lib/bus.js:226-227 | A subscription that has just issued a request issues no other before its `timePoll` interval has elapsed |
| Reads.PollOne | lib/bus.js:221-252 | `pollOne` changes only the polled subscription, as `PollSub` describes |
| Reads.PollEach | lib/bus.js:217-218 | The loop over subscriptions keeps the set of subscriptions and issues requests only for registered ones |
| Reads.PollEachAlone | lib/bus.js:217-218 | In the loop, each subscription ends up as, and issues what, `pollOne` on it alone would |
| Reads.Poll | lib/bus.js:207-219 | Without a client, `poll` is exactly `connect` and issues nothing. With one, it touches only the subscriptions and issues requests only for registered ones |
| Reads.PollPollsEachAlone | lib/bus.js:217-218 | Whatever the enumeration order, `poll` treats every subscription as if it had been polled alone |
| Reads.PollKeepsInv | lib/bus.js:207-219 | `poll` preserves the invariant |
| Reads.OnPollSucceeded | lib/bus.js:124-127 | A successful request whose hook was armed removes its subscription and then notifies `ondone`. One without a hook changes nothing |
| Reads.HookCapturedAtIssue | lib/bus.js:108-117 | A request already issued when `convertOneshot` is called does not complete the one-shot, even if it succeeds |
| Reads.NextPollCompletesOneshot | lib/bus.js:229-237 | The first request issued after `convertOneshot` carries the hook, and its success removes the subscription and notifies `ondone` |
| Reads.CountOptions | lib/bus.js:153-154 | `count`'s options are the caller's options with `limit` set to 1 |
| Reads.Count | lib/bus.js:145-170 | `count` succeeds iff the options are an object with a numeric `timePoll`. It registers a one-shot with limit 1 |
| Reads.CountStep | lib/bus.js:157-169 | The first event calls back: with the record's `_count` if it is a record, with 0 if it is completion. Later events are silent |
| Reads.CountCallsBackOnce | lib/bus.js:156-169 | Over any run of events, `count` calls back exactly once if any event arrives, with the first record's `_count` or 0 |
| Reads.CountSilentOnceDone | lib/bus.js:158-159 | Once `count` has called back, no further event calls back |
| Sprintf.NatToString | lib/jsutil.js:104-105 | A non-negative integer prints as at least one decimal digit, with no leading zero |
| Sprintf.NatToStringRoundTrip | lib/jsutil.js:104-105 | Reading the printed digits back gives the number |
| Sprintf.IntToString | lib/jsutil.js:104-105 | The text starts with `-` iff the integer is negative. The digits after it have no leading zero, and their value is the integer's magnitude |
| Sprintf.DoPad | lib/jsutil.js:128-140 | `doPad` appends (left-aligned) or prepends copies of the pad character: as many as it takes, one at a time, to bring the JavaScript length (UTF-16 code units) to `width`, and none when `str` is already that long |
| Sprintf.DoPadShape | lib/jsutil.js:128-140 | `str` sits at the aligned end and every other character is the pad character. Each copy adds its UTF-16 length. A shorter `str` ends at least `width` code units long, and without the last copy it would be shorter than `width`. Text already `width` code units long comes back unchanged |
| Sprintf.TakeWhile | lib/jsutil.js:34 | The flag run is the longest prefix of flag characters, and the rest does not start with one |
| Sprintf.ScanDirective | lib/jsutil.js:31-39 | A scanned directive is well formed, and the text is exactly its rendering followed by the unscanned rest, which is shorter |
| Sprintf.ScanRendered | lib/jsutil.js:31-39 | Scanning a directive's own text gives back that directive and leaves whatever followed it |
| Sprintf.FindPercent | lib/jsutil.js:32-33 | The position found is the first `%`, and there is none iff the text has no `%` |
| Sprintf.NextStep | lib/jsutil.js:50-52 | The loop ends iff no `%` is left. Otherwise the text is a `%`-free prefix, a well-formed directive and the rest |
| Sprintf.DirectiveAt | lib/jsutil.js:50-52 | A `%`-free prefix followed by a directive is split at exactly that directive |
| Sprintf.DirectiveKeepsWellFormed | lib/jsutil.js:50-52 | A format is well formed iff the text after its first directive is |
| Sprintf.IntegerDirectiveCoerces | lib/jsutil.js:99-105 | `%d` of `null` prints as `%d` of 0 would, `false` and `true` as 0 and 1 would, and `undefined` prints `NaN` in the padded field |
| Sprintf.Convert | lib/jsutil.js:73-121 | Errors come in the code's order: unsupported flags, then precision, then unsupported conversion. `%s` of `undefined`/`null` throws with the argument number. Only plain `%s` and `%d` produce text |
| Sprintf.StringDirectivePads | lib/jsutil.js:91-97 | `%s` of a string prints it at the aligned end, with pad characters given by the flags added until its UTF-16 length reaches the width, and no more |
| Sprintf.IntegerDirectiveSign | lib/jsutil.js:99-106 | `%d` of an integer of magnitude at most 2^53 prints its decimal text, padded as `%s` pads. A `+` is put in front, outside the padding, exactly for positive numbers with the `+` flag |
| Sprintf.ZeroPadPrecedesSign | lib/jsutil.js:103-105 | `%05d` of −3 gives `000-3`: zero padding goes before the minus sign |
| Sprintf.PlusOutsideWidth | lib/jsutil.js:103-105 | `%+3d` of 5 gives `+  5`: the plus sign is added outside the padded width |
| Sprintf.Format | lib/jsutil.js:50-125 | Text without `%` is returned as it is |
| Sprintf.PercentEscape | lib/jsutil.js:62-65 | `%%` prints one `%` and formatting goes on without consuming an argument |
| Sprintf.TooFewArgs | lib/jsutil.js:67-68 | A directive other than `%%` with no argument left throws "too few args to sprintf", whatever the directive |
| Sprintf.ConsumesOneArgument | lib/jsutil.js:70-71 | Every other directive consumes exactly one argument and advances the argument number. Its conversion error stops formatting; otherwise its text is followed by the rest |
| Sprintf.TrailingText | lib/jsutil.js:124 | Appending `%`-free text to a well-formed format appends it to the output, or leaves an error as it was |
| Sprintf.NewJsError | lib/jsutil.js:182-212 | A `jsError` is built iff any cause is an Error and the format succeeds. Its message and `toString` are the formatted text, followed by `': ' + cause.message` when there is a cause. A format error or a non-Error cause is thrown instead |
| AsWritten.FiniAsWritten | lib/bus.js:463-470 | `txnFini` as written, with the identity map holding transaction objects: when its assertions pass, it does what the corrected `Fini` does |
| AsWritten.FiniAlwaysThrows | lib/bus.js:466-468 | As written, the per-record assertion of `txnFini` fails for every transaction of a well-formed bus. The corrected `Fini` finalizes it |
| AsWritten.TransientFallsThrough | lib/bus.js:362-367 | After the transient case's `break`, the guard that follows finalizes any transient error too |
| AsWritten.TransientRetriedThenFinalized | lib/bus.js:359-368 | Falling through, the retry leaves the transaction waiting with its timer started and the guard then finalizes it, so the timer names an id that is no longer live |
| AsWritten.ConflictIndexIsZero | lib/bus.js:379 | The written loop guard compares an index with a record object and is never true, so the index found is always 0 |
| AsWritten.ConflictOnSecondRecord | lib/bus.js:379-383 | For a conflict on the second record of a batch, the written loop picks record 0, while `FindConflict` picks record 1 |
| AsWritten.HandleErrorAsWritten | lib/bus.js:344-392 | As written, every transient error throws a TypeError, and every named conflict with a merge function fetches against record 0 |
| AsWritten.TransientErrorThrows | lib/bus.js:360 | A transient error crashes the written handler, while the corrected one retries the transaction |
| AsWritten.ConflictOnAbsentRecord | lib/bus.js:385-390 | A conflict naming a record not in the batch starts a fetch against record 0 as written, while the corrected handler finalizes with the error |
| AsWritten.MergeGetsUndefined | lib/bus.js:403 | As written, the merge function receives `undefined` as the old value, not the record's value |
| AsWritten.FlushLookupAsWritten | lib/bus.js:320-321 | `flush` finds a transaction only under a key that is the decimal text of a live id |
| AsWritten.RetriedObjectNotFound | lib/bus.js:452 | The transaction object the retry timer pushes is not found by `flush`'s lookup, while an id is. The corrected timer pushes the id |
| AsWritten.PollOneAsWritten | lib/bus.js:250 | As written, `pollOne` issues the same requests but never carries a completion hook |
| AsWritten.OneshotNeverCompletes | lib/bus.js:250 | As written, the request after `convertOneshot` carries no hook, and its success neither removes the subscription nor calls `ondone`. The corrected model does both |
| AsWritten.RetryDelayAgrees | lib/bus.js:444-446 | For 1 to 25 failures, the 32-bit shift gives the intended delay |
| AsWritten.RetryDelayGoesNegative | lib/bus.js:444-446 | After 26, 27 and 30 failures, the 32-bit shift gives a negative delay where the intended one is the 10000 ms cap |

## Left out

- Construction: `createBus` and the constructor's reading of the configuration (the URL's host and port, `reconnect`) are left out. `BusState.NewBus` takes only `maxPendingPuts`.
- Logging: every `mb_log` call is left out, and so is the throttled logging of `txnReportTransientError` (`lib/bus.js:417-432`). It only logs, and as written it is never reached (see Findings). For the same reason the unused constants `mReportInterval` and `mMaxConflictRetries` do not appear.
- The client's `close` event is left out. Its handler only logs.
- The Moray client, the poll executor behind `mod_mamoray.poll`, `setTimeout`, `Date.now` and `jsprim.iso8601` are outside the model. Their calls are `Effect`s, and their results are events or parameters.
- The `Throttler` behind `timePoll` is not part of this model's source. `Throttles` models it from how the bus uses it: one remembered time and a minimum interval. That a passing `tooRecent()` check records the time of the check is assumed of the `Throttler`; nothing in `lib/bus.js` shows it. `pollOne` also hands the throttle itself to the poll executor (`lib/bus.js:246`). Whatever the executor does to it is not modelled, and `PollRequest` carries no throttle.
- The barrier (`vasync.barrier`) is not modelled as an object. Whether it has pending work is the `busy` input of `Reads.Poll`.
- The record callback's wrapping, `onrecord(record, barrier)`, is left out. Records are delivered by the poll executor.
- Subscription ids are numbers from a counter, not the strings `bucket + '-' + query + '-' + n`. Both are unique per subscription, and the model needs nothing more.
- `count`'s use of `Object.create(uoptions)` is modelled as a copy of the options with `limit` set to 1. Property lookups give the same answers.
- The values the store returns, and the fields of errors other than `name`, `bucket` and `key`, are opaque. `VError` wrapping is modelled as a message plus the wrapped error.
- `Sprintf.Format`: a `%` that begins no directive ends formatting with `Unmodelled`. The code searches the rest of the text for a match and then drops that match's length from the front, which mangles the text (in `"a%zb%s"` the first chunk dropped is `a%zb%`, not `a%zb`). That text-mangling path is not modelled.
- `Sprintf.Convert`: `%f` (floating point), `%j` (`util.inspect`) and `%r` (`dumpException`) give `Unmodelled`, since they depend on code and number formats outside the model. So do `%s` of an array or object and `%d` of a string, array or object, which go through JavaScript's string and number coercions.
- `Sprintf.IntToString`: numbers are integers only. `Num` admits any integer, including ones that are not JavaScript numbers. Above 2^53 in magnitude `String(n)` no longer prints the exact integer, so `%d` of such a number gives `Unmodelled`.
- `Writes.Refreshed`: options are values, not shared objects. In the code, record options are the caller's `rec[3]` object itself (`lib/bus.js:535`), and the merge writes `etag` into it in place (`lib/bus.js:412`). The caller and any other record sharing that object see the new `etag` too; the model updates only the retried record. An array given as options would also gain an `etag` property in JavaScript; `JsValues.Set` leaves an array unchanged.
- Stack capture, the `name` property and the `cause()` accessor of `jsError` are left out. A non-string `fmt` to `jsSprintf` is excluded by the types.
- Assertion failures are modelled as a `Fatal` or `Crashed` result with a short reason, not as exact Node assertion messages.
- `AsWritten.StringToNumber`: JavaScript's string-to-number coercion is modelled only for strings of decimal digits (and everything else is NaN). That covers every key the bus uses.
- `AsWritten.HandleErrorAsWritten`: states the written behaviour only for the two classes of input the findings are about (transient names, and named conflicts with a merge function). For other inputs it is defined, but not constrained beyond that.

## Findings

| source | as written | input that shows it | evidently intended | confidence | as-written member | corrected member |
|---|---|---|---|---|---|---|
| lib/bus.js:360 | calls `this.reportTransientError`, which the bus does not define (the method is `txnReportTransientError`, line 417) | any failed write whose error is transient, e.g. `QueryTimeoutError` | report the error, then retry | not executed | AsWritten.TransientErrorThrows | Writes.HandleError |
| lib/bus.js:362-367 | the transient case `break`s out of the `switch` into the guard that finalizes every non-conflict error | a transient error, once the call above resolves | retry only; `return` after `txnRetry` | not executed | AsWritten.TransientFallsThrough | Writes.HandleError |
| lib/bus.js:379 | the loop guard `i < txn.tx_records[i]` compares with a record object (NaN), so the loop never runs and `i` stays 0 | a conflict on the second record of a two-record batch | `i < txn.tx_records.length` | not executed | AsWritten.ConflictOnSecondRecord | Writes.FindConflict |
| lib/bus.js:385-390 | since `i` is always 0, the check for a record not in the batch never fires | a conflict naming a bucket/key not in the batch | finalize with the error | not executed | AsWritten.ConflictOnAbsentRecord | Writes.HandleError |
| lib/bus.js:403 | the merge is given `rec[i]`, property `"0"` of the record object, which is `undefined` | any retryable conflict | the record's value, `rec['value']` | not executed | AsWritten.MergeGetsUndefined | Writes.OnConflictFetched |
| lib/bus.js:452 | the retry timer pushes the transaction object on `mb_putq`. `flush` then looks up `mb_txns["[object Object]"]` and its assertion fails | any retried write followed by a `flush` | push `txn.tx_ident` | not executed | AsWritten.RetriedObjectNotFound | Writes.OnRetryTimer |
| lib/bus.js:298 | the identity map stores the transaction object, while `txnFini` (466-468) asserts that the entry `== txn.tx_ident`. An object never loosely equals a number here | every finalization, successful writes included | store `txn.tx_ident` | not executed | AsWritten.FiniAlwaysThrows | Writes.Fini |
| lib/bus.js:250 | `pollOne` passes `subscrip.mbs_ondone`, which nothing sets. `convertOneshot` (124) sets `mbs_onsuccess` | any `oneshot`; `count` on a query with no records never calls back | pass `subscrip.mbs_onsuccess` | not executed | AsWritten.OneshotNeverCompletes | Reads.NextPollCompletesOneshot |
| lib/bus.js:444-446 | `mMinRetryTime << (nfails - 1)` is a 32-bit shift: after 26, 27 or 30 failures it wraps to a negative delay, which `Math.min` keeps | the 26th consecutive transient failure of one write | the 10000 ms cap | not executed | AsWritten.RetryDelayGoesNegative | Backoff.RetryDelay |

=== FILE: aswritten.dfy ===
/**
 * `MorayBus` as lib/bus.js spells it, where that departs from the behaviour
 * its comments and its own design describe. Each member here follows the
 * code; a lemma next to it names an input on which it departs from the
 * intended behaviour, which `Writes`, `Reads` and `Backoff` model and prove
 * properties of.
 *
 * Most of the departures come from JavaScript's implicit conversions: an
 * object compared with, or used as the key of, something numeric turns into
 * the string "[object Object]", whose numeric value is NaN.
 */
module AsWritten {
  import opened Wrappers
  import opened JsValues
  import opened Backoff
  import opened Transactions
  import opened BusState
  import opened Sprintf
  import opened Writes
  import opened Reads

  // ---------------------------------------------------------------------------
  // JavaScript conversions

  /** A JavaScript number: an integer value, or NaN. */
  datatype Number = Finite(n: int) | NotANumber

  /** What an object turns into when a string or a number is needed. */
  const ObjectString: string := "[object Object]"

  /** A non-empty run of decimal digits. */
  predicate DecimalDigits(s: string) {
    |s| > 0 && forall k :: 0 <= k < |s| ==> IsDigit(s[k])
  }

  /**
   * `Number(s)` for the strings this module needs: a run of decimal digits
   * is its value and anything else is NaN (signs, fractions, exponents,
   * white space and hexadecimal are not modelled).
   */
  function StringToNumber(s: string): (r: Number)
    ensures r.Finite? <==> DecimalDigits(s)
  {
    if DecimalDigits(s) then Finite(DigitsValue(s)) else NotANumber
  }

  /** A printed natural number is a run of decimal digits. */
  lemma {:induction false} NatToStringDigits(n: nat)
    ensures DecimalDigits(NatToString(n))
    decreases n
  {
    if n >= 10 {
      NatToStringDigits(n / 10);
      var front := NatToString(n / 10);
      var r := NatToString(n);
      assert r == front + [DigitChar(n % 10)];
      forall k | 0 <= k < |r|
        ensures IsDigit(r[k])
      {
        if k < |front| {
          assert r[k] == front[k];
        }
      }
    }
  }

  /** An object is not a number: its string has no numeric value. */
  lemma ObjectIsNaN()
    ensures StringToNumber(ObjectString) == NotANumber
  {
    assert !IsDigit(ObjectString[0]);
  }

  /** The loose equality `object == n`: the object's string is compared as a number. */
  predicate ObjectLooselyEquals(n: nat) {
    StringToNumber(ObjectString) == Finite(n)
  }

  /** The relational comparison `n < x` of a natural number with a number. */
  predicate LessThan(n: nat, x: Number) {
    match x
    case NotANumber => false
    case Finite(m) => n < m
  }

  /**
   * Reading property `key` of `m`, an object whose own keys are the decimal
   * forms of the ids of `m` (as `mb_txns` is keyed by `tx_ident`).
   */
  function LookupById<T>(m: map<nat, T>, key: string): (r: Option<T>)
    ensures r.Some? ==> StringToNumber(key).Finite? && StringToNumber(key).n in m
  {
    match StringToNumber(key)
    case NotANumber => None
    case Finite(n) =>
      if n >= 0 && NatToString(n) == key && n in m then Some(m[n]) else None
  }

  /** An id's decimal form reads back the entry under that id. */
  lemma LookupOwnKey<T>(m: map<nat, T>, n: nat)
    requires n in m
    ensures LookupById(m, NatToString(n)) == Some(m[n])
  {
    NatToStringDigits(n);
    NatToStringRoundTrip(n);
  }

  /** An object used as a key reads nothing. */
  lemma LookupObjectKey<T>(m: map<nat, T>)
    ensures LookupById(m, ObjectString) == None
  {
    ObjectIsNaN();
  }

  // ---------------------------------------------------------------------------
  // How a handler ends

  /** A handler returns, or throws (a failed assertion, a call of an undefined method). */
  datatype Run = Crashed(reason: string) | Ran(bus: Bus, effects: seq<Effect>)

  const UndefinedMethodReason := "TypeError: this.reportTransientError is not a function"
  const AssertionReason := "AssertionError"

  // ---------------------------------------------------------------------------
  // txnFini and the record-identity map

  /** The record-identity map as `putBatch` fills it: each identity names the transaction OBJECT. */
  datatype TxnObject = TxnObject(id: nat)

  function ObjectsOf(byRecord: map<string, nat>): (r: map<string, TxnObject>)
    ensures r.Keys == byRecord.Keys
    ensures forall k :: k in byRecord ==> r[k] == TxnObject(byRecord[k])
  {
    map k | k in byRecord :: TxnObject(byRecord[k])
  }

  /** The assertion `txnFini` makes for each record: the map's entry loosely equals `tx_ident`. */
  predicate FiniChecksPass(byRecord: map<string, TxnObject>, records: seq<Record>, id: nat) {
    forall i :: 0 <= i < |records| ==> records[i].ident in byRecord && ObjectLooselyEquals(id)
  }

  /**
   * `txnFini` as written: it first deletes the transaction from `mb_txns`,
   * then asserts for each record that the identity map names it. The map
   * holds transaction objects, so the assertion on the first record throws:
   * the callback is never called and no identity is released. `Crashed`
   * ends the run, so the state left half-changed (the transaction gone,
   * its identities still mapped) is not modelled.
   */
  function FiniAsWritten(s: Bus, id: nat, err: Option<BusError>, meta: Option<JsValue>): (r: Run)
    requires id in s.txns && OwnsIdents(s, id)
    ensures r.Ran? ==> r == Ran(Fini(s, id, err, meta).0, Fini(s, id, err, meta).1)
    ensures s.txns[id].records == [] ==> r.Ran?
  {
    if FiniChecksPass(ObjectsOf(s.byRecord), s.txns[id].records, id) then
      var (s', effects) := Fini(s, id, err, meta);
      Ran(s', effects)
    else Crashed(AssertionReason)
  }

  /**
   * Every live transaction holds a record, so `txnFini` as written throws
   * for every transaction; the corrected `Fini` removes it and calls back.
   */
  lemma FiniAlwaysThrows(s: Bus, id: nat, err: Option<BusError>, meta: Option<JsValue>)
    requires Inv(s) && id in s.txns
    ensures OwnsIdents(s, id)
    ensures FiniAsWritten(s, id, err, meta) == Crashed(AssertionReason)
    ensures Finalized(s, Fini(s, id, err, meta).0, Fini(s, id, err, meta).1, id, err, meta)
  {
    IdentSetOwned(s, id);
    ObjectIsNaN();
    var records := s.txns[id].records;
    assert |records| > 0;
    assert !ObjectLooselyEquals(id);
    assert !FiniChecksPass(ObjectsOf(s.byRecord), records, id) by {
      assert !(records[0].ident in ObjectsOf(s.byRecord) && ObjectLooselyEquals(id));
    }
  }

  // ---------------------------------------------------------------------------
  // txnHandleError

  /** The guard after the `switch`: anything but a conflict with a merge function is finalized. */
  predicate PostSwitchFinalizes(t: Txn, err: StoreError) {
    err.name != ConflictName || t.merge.None?
  }

  /**
   * The `switch` has no `return` after `txnRetry`, so a transient error
   * would also reach the guard after it, which finalizes it: the transaction
   * would be both retried and finalized.
   */
  lemma TransientFallsThrough(t: Txn, err: StoreError)
    requires err.name in TransientNames
    ensures PostSwitchFinalizes(t, err)
  {
    assert err.name != ConflictName;
  }

  /**
   * Where the fall-through ends, even with the missing method defined and
   * `txnFini` storing the id: the retry leaves the transaction `Waiting` with
   * its timer started, and the guard then finalizes it. The timer's effect
   * names an id that is no longer live, so when it fires there is nothing to
   * queue.
   */
  lemma TransientRetriedThenFinalized(s: Bus, id: nat, err: StoreError)
    requires Inv(s) && id in s.txns && s.txns[id].phase.Idle? && err.name in TransientNames
    ensures var (s1, e1) := Retry(s, id);
      && s1.txns[id].phase.Waiting?
      && e1 == [StartTimer(id, RetryDelay(s.txns[id].nfails + 1))]
      && OwnsIdents(s1, id)
      && var (s2, e2) := Fini(s1, id, Some(StoreFailure(err)), None);
         && Finalized(s1, s2, e2, id, Some(StoreFailure(err)), None)
         && id !in s2.txns
  {
  }

  /**
   * The search loop `for (i = 0; i < txn.tx_records[i]; i++)`, where each
   * element of the batch compares as the number `element` (past the end
   * the element is `undefined`, which compares as NaN).
   */
  function ConflictLoopAsWritten(records: seq<Record>, bucket: string, key: string, element: Number, i: nat): (r: nat)
    ensures i <= r
    decreases |records| - i
  {
    if i < |records| && LessThan(i, element) then
      if records[i].bucket == bucket && records[i].key == key then i
      else ConflictLoopAsWritten(records, bucket, key, element, i + 1)
    else i
  }

  /** The index the loop stops at: each element is a record object. */
  function ConflictIndexAsWritten(records: seq<Record>, bucket: string, key: string): nat {
    ConflictLoopAsWritten(records, bucket, key, StringToNumber(ObjectString), 0)
  }

  /** The loop never advances, since an object compares as NaN: the index is 0 whatever the batch and the conflict. */
  lemma ConflictIndexIsZero(records: seq<Record>, bucket: string, key: string)
    ensures ConflictIndexAsWritten(records, bucket, key) == 0
  {
    ObjectIsNaN();
  }

  /**
   * A conflict on the second record of a two-record batch: the intended
   * search finds record 1, the loop as written settles on record 0, which
   * does not even match.
   */
  lemma ConflictOnSecondRecord(r0: Record, r1: Record, bucket: string, key: string)
    requires r1.bucket == bucket && r1.key == key && r0.key != key
    ensures FindConflict([r0, r1], bucket, key) == Some(1)
    ensures ConflictIndexAsWritten([r0, r1], bucket, key) == 0
    ensures !([r0, r1][0].bucket == bucket && [r0, r1][0].key == key)
  {
    ConflictIndexIsZero([r0, r1], bucket, key);
    assert [r0, r1][1..] == [r1];
  }

  /**
   * `txnHandleError` as written: a transient error calls an undefined
   * method; a conflict with a merge function on a named record always
   * re-fetches and targets record 0; everything else goes to `txnFini`.
   */
  function HandleErrorAsWritten(s: Bus, id: nat, err: StoreError): (r: Run)
    requires id in s.txns && s.txns[id].phase.Idle? && OwnsIdents(s, id)
    ensures err.name in TransientNames ==> r == Crashed(UndefinedMethodReason)
    ensures ConflictNamed(s.txns[id], err) && s.txns[id].records != [] ==>
      && r.Ran?
      && r.bus.txns == s.txns[id := s.txns[id].(phase := Fetching(0, err))]
      && r.effects == [GetObject(id, err.bucket.value, err.key.value, true)]
  {
    var t := s.txns[id];
    if err.name in TransientNames then Crashed(UndefinedMethodReason)
    else if PostSwitchFinalizes(t, err) then FiniAsWritten(s, id, Some(StoreFailure(err)), None)
    else if !Given(err.bucket) || !Given(err.key) then FiniAsWritten(s, id, Some(StoreFailure(err)), None)
    else
      var i := ConflictIndexAsWritten(t.records, err.bucket.value, err.key.value);
      ConflictIndexIsZero(t.records, err.bucket.value, err.key.value);
      if i == |t.records| then FiniAsWritten(s, id, Some(StoreFailure(err)), None)
      else (Ran(s.(txns := s.txns[id := t.(phase := Fetching(i, err))]), [GetObject(id, err.bucket.value, err.key.value, true)]))
  }

  /** A transient error throws as written; the corrected routing retries the transaction. */
  lemma TransientErrorThrows(s: Bus, id: nat, err: StoreError)
    requires Inv(s) && id in s.txns && s.txns[id].phase.Idle? && err.name in TransientNames
    ensures OwnsIdents(s, id)
    ensures HandleErrorAsWritten(s, id, err) == Crashed(UndefinedMethodReason)
    ensures Retried(s, HandleError(s, id, err).0, HandleError(s, id, err).1, id)
  {
    IdentSetOwned(s, id);
  }

  /**
   * A conflict naming no record of the batch: as written the store is asked
   * for the object and the merge aimed at record 0; the corrected routing
   * finalizes with the conflict.
   */
  lemma ConflictOnAbsentRecord(s: Bus, id: nat, err: StoreError)
    requires Inv(s) && id in s.txns && s.txns[id].phase.Idle? && ConflictNamed(s.txns[id], err)
    requires FindConflict(s.txns[id].records, err.bucket.value, err.key.value).None?
    ensures OwnsIdents(s, id)
    ensures HandleErrorAsWritten(s, id, err).Ran?
    ensures HandleErrorAsWritten(s, id, err).bus.txns[id].phase == Fetching(0, err)
    ensures Finalized(s, HandleError(s, id, err).0, HandleError(s, id, err).1, id, Some(StoreFailure(err)), None)
  {
    IdentSetOwned(s, id);
    assert |s.txns[id].records| > 0;
  }

  // ---------------------------------------------------------------------------
  // The merge argument

  /** A record as the transaction constructor builds it: an object with five properties. */
  function RecordObject(r: Record): (v: JsValue)
    ensures v.Obj? && v.fields.Keys == {"bucket", "key", "value", "options", "ident"}
    ensures Get(v, "value") == r.value
  {
    Obj(map["bucket" := Str(r.bucket), "key" := Str(r.key), "value" := r.value,
            "options" := r.options, "ident" := Str(r.ident)])
  }

  /** The first argument the merge function receives as written: `rec[i]`, property `String(i)` of the record. */
  function MergeArgumentAsWritten(rec: Record, i: nat): JsValue {
    Get(RecordObject(rec), NatToString(i))
  }

  /**
   * No property of a record is named by a number, so the merge function is
   * handed `undefined` instead of the record's prior value, which the
   * corrected `OnConflictFetched` passes.
   */
  lemma MergeGetsUndefined(rec: Record, i: nat)
    ensures MergeArgumentAsWritten(rec, i) == Undefined
    ensures Get(RecordObject(rec), "value") == rec.value
  {
    NatToStringDigits(i);
    var key := NatToString(i);
    assert IsDigit(key[0]);
    assert key !in RecordObject(rec).fields;
  }

  // ---------------------------------------------------------------------------
  // The retry timer and flush

  /** An element of `mb_putq`: an id, as `putBatch` pushes, or a transaction object, as `txnRetry` pushes. */
  datatype QueueEntry = IdEntry(id: nat) | ObjectEntry(txn: TxnObject)

  /** The property key an entry turns into when used to index `mb_txns`. */
  function KeyOf(e: QueueEntry): string {
    match e
    case IdEntry(n) => NatToString(n)
    case ObjectEntry(_) => ObjectString
  }

  /** `flush`'s `txn = this.mb_txns[this.mb_putq.pop()]` and the assertion that it found one. */
  function FlushLookupAsWritten(txns: map<nat, Txn>, e: QueueEntry): (r: Result<Txn, Fatal>)
    ensures r.Ok? ==> LookupById(txns, KeyOf(e)) == Some(r.value)
  {
    match LookupById(txns, KeyOf(e))
    case None => Err(Fatal(AssertionReason))
    case Some(t) => Ok(t)
  }

  /**
   * A queued id finds its transaction, but the object `txnRetry` pushes
   * finds nothing and the assertion fails, even though the transaction is
   * still live; the corrected timer (`OnRetryTimer`) queues the id.
   */
  lemma RetriedObjectNotFound(s: Bus, id: nat)
    requires id in s.txns && s.txns[id].phase.Waiting?
    ensures FlushLookupAsWritten(s.txns, ObjectEntry(TxnObject(id))).Err?
    ensures FlushLookupAsWritten(s.txns, IdEntry(id)) == Ok(s.txns[id])
    ensures OnRetryTimer(s, id).putq == s.putq + [id]
  {
    LookupObjectKey(s.txns);
    LookupOwnKey(s.txns, id);
  }

  // ---------------------------------------------------------------------------
  // The one-shot hook

  /**
   * `pollOne` as written: it hands the executor `mbs_ondone`, a property
   * nothing assigns (`convertOneshot` sets `mbs_onsuccess`), so no request
   * carries the completion hook.
   */
  function PollOneAsWritten(s: Bus, id: nat, busy: bool, now: int): (r: (Bus, Option<PollRequest>))
    requires s.client.Some? && id in s.subs
    ensures r.1.Some? ==> r.1.value.onDone.None?
    ensures r.0 == PollOne(s, id, busy, now).0
    ensures r.1.Some? <==> PollOne(s, id, busy, now).1.Some?
  {
    var (s', req) := PollOne(s, id, busy, now);
    (s', if req.Some? then Some(req.value.(onDone := None)) else None)
  }

  /**
   * As written a one-shot subscription is never removed and its `onDone`
   * is never notified, however its requests succeed; the corrected
   * `PollOne` completes it on the next successful request.
   */
  lemma OneshotNeverCompletes(s: Bus, id: nat, later: int, onDone: CallbackId)
    requires s.client.Some? && id in s.subs
    requires PollOneAsWritten(ConvertOneshot(s, id, onDone).value, id, false, later).1.Some?
    ensures var s2 := ConvertOneshot(s, id, onDone).value;
            var (s3, req) := PollOneAsWritten(s2, id, false, later);
      && id in OnPollSucceeded(s3, req.value).0.subs
      && OnPollSucceeded(s3, req.value).1 == []
    ensures var s2 := ConvertOneshot(s, id, onDone).value;
            var (s3, req) := PollOne(s2, id, false, later);
      && OnPollSucceeded(s3, req.value).1 == [Notify(onDone)]
  {
    NextPollCompletesOneshot(s, id, later, onDone);
  }

  // ---------------------------------------------------------------------------
  // Backoff in 32-bit arithmetic

  const TwoTo31: int := 0x8000_0000
  const TwoTo32: int := 0x1_0000_0000

  /** JavaScript's ToInt32: the value modulo 2^32, read as a signed 32-bit integer. */
  function ToInt32(x: int): (r: int)
    ensures -TwoTo31 <= r < TwoTo31
    ensures (x - r) % TwoTo32 == 0
    ensures -TwoTo31 <= x < TwoTo31 ==> r == x
  {
    var m := x % TwoTo32;
    if m >= TwoTo31 then m - TwoTo32 else m
  }

  /** `a << k` on JavaScript numbers. */
  function ShiftLeft(a: int, k: nat): int {
    ToInt32(ToInt32(a) * Pow2(k % 32))
  }

  /** `txnRetry`'s delay as written, with `<<` in place of a power of two. */
  function RetryDelayAsWritten(nfails: nat): int
    requires nfails >= 1
  {
    if nfails > ExponentLimit then MaxRetryTime
    else Min(ShiftLeft(MinRetryTime, nfails - 1), MaxRetryTime)
  }

  lemma {:induction false} Pow2Add(a: nat, b: nat)
    ensures Pow2(a + b) == Pow2(a) * Pow2(b)
    decreases b
  {
    if b > 0 {
      Pow2Add(a, b - 1);
    }
  }

  lemma Pow2Values()
    ensures Pow2(24) == 16777216 && Pow2(25) == 33554432 && Pow2(26) == 67108864 && Pow2(29) == 536870912
  {
    assert Pow2(8) == 256;
    assert Pow2(5) == 32;
    Pow2Add(8, 8);
    Pow2Add(16, 8);
    Pow2Add(24, 1);
    Pow2Add(24, 2);
    Pow2Add(24, 5);
  }

  /** Up to 25 failures the shift does not overflow and the delay is the intended one. */
  lemma RetryDelayAgrees(nfails: nat)
    requires 1 <= nfails <= 25
    ensures RetryDelayAsWritten(nfails) == RetryDelay(nfails)
  {
    var k := nfails - 1;
    Pow2Monotone(k, 24);
    Pow2Values();
    var p := MinRetryTime * Pow2(k);
    assert 0 < p < TwoTo31;
    assert ToInt32(MinRetryTime) == MinRetryTime;
    assert k % 32 == k;
    assert ShiftLeft(MinRetryTime, k) == ToInt32(p);
  }

  /** The shifts that overflow. */
  lemma OverflowingShifts()
    ensures ShiftLeft(MinRetryTime, 25) == -939524096
    ensures ShiftLeft(MinRetryTime, 26) == -1879048192
    ensures ShiftLeft(MinRetryTime, 29) == -2147483648
  {
    Pow2Values();
    assert ToInt32(MinRetryTime) == MinRetryTime;
    assert ShiftLeft(MinRetryTime, 25) == ToInt32(3355443200);
    assert ShiftLeft(MinRetryTime, 26) == ToInt32(6710886400);
    assert ShiftLeft(MinRetryTime, 29) == ToInt32(53687091200);
  }

  /**
   * At 26, 27 and 30 failures the shift overflows into a negative delay
   * (a timer that fires at once), where the intended delay is the cap.
   */
  lemma RetryDelayGoesNegative()
    ensures RetryDelayAsWritten(26) == -939524096 && RetryDelay(26) == MaxRetryTime
    ensures RetryDelayAsWritten(27) == -1879048192 && RetryDelay(27) == MaxRetryTime
    ensures RetryDelayAsWritten(30) == -2147483648 && RetryDelay(30) == MaxRetryTime
  {
    OverflowingShifts();
  }
}

=== FILE: backoff.dfy ===
/**
 * Retry backoff for failed batch writes: the delay doubles from
 * `MinRetryTime` with each failure and is capped at `MaxRetryTime`; past 30
 * failures the cap is used directly.
 */
module Backoff {

  /** Minimum delay between retries, in milliseconds. */
  const MinRetryTime: int := 100
  /** Maximum delay between retries, in milliseconds. */
  const MaxRetryTime: int := 10000
  /** Failure count past which the cap is used without computing the power. */
  const ExponentLimit: nat := 30

  function Pow2(k: nat): (r: nat)
    ensures r >= 1
  {
    if k == 0 then 1 else 2 * Pow2(k - 1)
  }

  lemma {:induction false} Pow2Monotone(j: nat, k: nat)
    requires j <= k
    ensures Pow2(j) <= Pow2(k)
    decreases k
  {
    if j < k {
      Pow2Monotone(j, k - 1);
    }
  }

  function Min(a: int, b: int): (r: int)
    ensures r <= a && r <= b && (r == a || r == b)
  {
    if a <= b then a else b
  }

  /**
   * The delay before retry number `nfails` (the failure count after it has
   * been incremented), computed without machine-integer wrap-around.
   */
  function RetryDelay(nfails: nat): (r: int)
    requires nfails >= 1
    ensures MinRetryTime <= r <= MaxRetryTime
    ensures nfails <= 7 ==> r == MinRetryTime * Pow2(nfails - 1)
    ensures nfails >= 8 ==> r == MaxRetryTime
  {
    if nfails > ExponentLimit then MaxRetryTime
    else
      var r := Min(MinRetryTime * Pow2(nfails - 1), MaxRetryTime);
      if nfails >= 8 then
        Pow2Monotone(7, nfails - 1);
        r
      else
        Pow2Monotone(nfails - 1, 6);
        r
  }

  /** The first eight delays of a transaction that keeps failing. */
  lemma RetryDelayTable()
    ensures RetryDelay(1) == 100 && RetryDelay(2) == 200 && RetryDelay(3) == 400
    ensures RetryDelay(4) == 800 && RetryDelay(5) == 1600 && RetryDelay(6) == 3200
    ensures RetryDelay(7) == 6400 && RetryDelay(8) == 10000
  {
  }

  /** Below the cap each failure doubles the delay. */
  lemma RetryDelayDoubles(nfails: nat)
    requires 1 <= nfails < 7
    ensures RetryDelay(nfails + 1) == 2 * RetryDelay(nfails)
  {
  }

  /** More failures never shorten the delay. */
  lemma RetryDelayMonotone(j: nat, k: nat)
    requires 1 <= j <= k
    ensures RetryDelay(j) <= RetryDelay(k)
  {
    if k <= 7 {
      Pow2Monotone(j - 1, k - 1);
    }
  }
}

=== FILE: busstate.dfy ===
/**
 * The state of one `MorayBus`: the store connection, the subscription
 * registry, and the write side (transactions by id, the outgoing queue, the
 * in-flight counter and its cap, and the record-identity map), together with
 * the invariants every event preserves.
 */
module BusState {
  import opened Wrappers
  import opened JsValues
  import opened Throttles
  import opened Transactions

  /** One polled query (`MorayBusSubscription`). */
  datatype Subscription = Subscription(
    bucket: string,
    query: int -> string,          // filter as a function of the poll time
    limit: int,
    throttle: Throttle,            // minimum time between polls
    onRecord: CallbackId,
    onSuccess: Option<CallbackId>) // one-shot completion hook, once converted

  /** The one-shot hook as bound into a poll request: remove `sub`, then call `onDone`. */
  datatype Hook = Hook(sub: nat, onDone: CallbackId)

  /** One read handed to the external query executor. */
  datatype PollRequest = PollRequest(
    client: nat,
    bucket: string,
    limit: int,
    noCache: bool,
    now: int,
    filter: string,
    onRecord: CallbackId,
    onDone: Option<Hook>)

  /** What an event asks the outside world to do, in order. */
  datatype Effect =
    | CreateClient(client: nat)
    | BatchPut(txn: nat)                  // the transaction's current records
    | GetObject(txn: nat, bucket: string, key: string, noCache: bool)  // noCache: bypass the client's cache
    | StartTimer(txn: nat, delay: int)
    | Invoke(callback: CallbackId, err: Option<BusError>, meta: Option<JsValue>)
    | Notify(callback: CallbackId)

  datatype Bus = Bus(
    client: Option<nat>,
    connecting: bool,
    nextClient: nat,
    subs: map<nat, Subscription>,
    nextSub: nat,
    maxPuts: nat,
    pending: nat,
    txns: map<nat, Txn>,
    putq: seq<nat>,
    byRecord: map<string, nat>,
    nextTxn: nat)

  /** A freshly constructed bus: disconnected, no subscriptions, nothing to write. */
  function NewBus(maxPuts: nat): (s: Bus)
    ensures Inv(s)
    ensures s.client.None? && !s.connecting && s.subs == map[] && s.txns == map[] && s.putq == []
  {
    Bus(None, false, 0, map[], 0, maxPuts, 0, map[], [], map[], 0)
  }

  /** The identities a transaction holds. */
  function IdentSet(records: seq<Record>): set<string> {
    set r | r in records :: r.ident
  }

  ghost function InFlightIds(txns: map<nat, Txn>): set<nat> {
    set id | id in txns && txns[id].phase.InFlight?
  }

  /** The in-flight counter counts the transactions in flight and never exceeds the cap. */
  ghost predicate PendingCounted(s: Bus) {
    && s.pending == |InFlightIds(s.txns)|
    && s.pending <= s.maxPuts
  }

  /** Every record of a live transaction maps back to that transaction. */
  ghost predicate IdentsOwned(s: Bus) {
    forall id, i :: id in s.txns && 0 <= i < |s.txns[id].records| ==>
      s.txns[id].records[i].ident in s.byRecord && s.byRecord[s.txns[id].records[i].ident] == id
  }

  /** Every entry of the identity map names a live transaction holding that identity. */
  ghost predicate IdentsLive(s: Bus) {
    forall ident :: ident in s.byRecord ==>
      s.byRecord[ident] in s.txns && ident in IdentSet(s.txns[s.byRecord[ident]].records)
  }

  /** The queue holds exactly the queued transactions, each once. */
  ghost predicate QueueResolves(s: Bus) {
    && (forall j :: 0 <= j < |s.putq| ==> s.putq[j] in s.txns && s.txns[s.putq[j]].phase.Queued?)
    && (forall id :: id in s.txns && s.txns[id].phase.Queued? ==> id in s.putq)
    && (forall j, k :: 0 <= j < k < |s.putq| ==> s.putq[j] != s.putq[k])
  }

  /** Per-transaction well-formedness. */
  ghost predicate TxnsWellFormed(s: Bus) {
    && (forall id :: id in s.txns ==> id < s.nextTxn)
    && (forall id :: id in s.txns ==> |s.txns[id].records| > 0)
    && (forall id, i :: id in s.txns && 0 <= i < |s.txns[id].records| ==>
          s.txns[id].records[i].ident == Ident(s.txns[id].records[i].bucket, s.txns[id].records[i].key))
    && (forall id :: id in s.txns && s.txns[id].phase.Fetching? ==>
          s.txns[id].phase.index < |s.txns[id].records| && s.txns[id].merge.Some?)
  }

  ghost predicate SubsWellFormed(s: Bus) {
    forall id :: id in s.subs ==> id < s.nextSub
  }

  ghost predicate Inv(s: Bus) {
    && PendingCounted(s)
    && IdentsOwned(s)
    && IdentsLive(s)
    && QueueResolves(s)
    && TxnsWellFormed(s)
    && SubsWellFormed(s)
  }

  /** Every identity is held by at most one live transaction. */
  lemma ExclusiveOwnership(s: Bus, a: nat, b: nat, i: nat, j: nat)
    requires Inv(s)
    requires a in s.txns && b in s.txns && a != b
    requires i < |s.txns[a].records| && j < |s.txns[b].records|
    ensures s.txns[a].records[i].ident != s.txns[b].records[j].ident
  {
  }

  /** The identity map names transaction `id` for every identity it holds. */
  ghost predicate OwnsIdents(s: Bus, id: nat)
    requires id in s.txns
  {
    forall x :: x in IdentSet(s.txns[id].records) ==> x in s.byRecord && s.byRecord[x] == id
  }

  /** Every identity a live transaction holds maps back to it. */
  lemma IdentSetOwned(s: Bus, id: nat)
    requires Inv(s) && id in s.txns
    ensures OwnsIdents(s, id)
  {
    var t := s.txns[id];
    forall x | x in IdentSet(t.records)
      ensures x in s.byRecord && s.byRecord[x] == id
    {
      var r :| r in t.records && r.ident == x;
      var j :| 0 <= j < |t.records| && t.records[j] == r;
    }
  }

  /** A transaction in flight accounts for one unit of the counter. */
  lemma InFlightCounted(s: Bus, id: nat)
    requires Inv(s)
    requires id in s.txns && s.txns[id].phase.InFlight?
    ensures s.pending >= 1
  {
    assert id in InFlightIds(s.txns);
  }

  /** `t'` writes the same records (identity, bucket and key) as `t`, possibly with new values. */
  ghost predicate SameShape(t: Txn, t': Txn) {
    && |t'.records| == |t.records|
    && forall i :: 0 <= i < |t.records| ==>
         && t'.records[i].ident == t.records[i].ident
         && t'.records[i].bucket == t.records[i].bucket
         && t'.records[i].key == t.records[i].key
  }

  lemma SameShapeIdents(t: Txn, t': Txn)
    requires SameShape(t, t')
    ensures IdentSet(t'.records) == IdentSet(t.records)
  {
    forall x | x in IdentSet(t.records) ensures x in IdentSet(t'.records) {
      var r :| r in t.records && r.ident == x;
      var i :| 0 <= i < |t.records| && t.records[i] == r;
      assert t'.records[i] in t'.records;
    }
    forall x | x in IdentSet(t'.records) ensures x in IdentSet(t.records) {
      var r :| r in t'.records && r.ident == x;
      var i :| 0 <= i < |t'.records| && t'.records[i] == r;
      assert t.records[i] in t.records;
    }
  }

  /** The phase and failure count of a transaction may change without touching the queue or the counter. */
  ghost predicate QuietChange(t: Txn, t': Txn) {
    && SameShape(t, t')
    && (t'.phase.Queued? <==> t.phase.Queued?)
    && (t'.phase.InFlight? <==> t.phase.InFlight?)
    && (t'.phase.Fetching? ==> t'.phase.index < |t'.records| && t'.merge.Some?)
  }

  /** Replacing a transaction by one of the same shape, in the same queue and flight status, keeps the invariant. */
  lemma ReplaceTxnKeepsInv(s: Bus, id: nat, t': Txn)
    requires Inv(s) && id in s.txns && QuietChange(s.txns[id], t')
    ensures Inv(s.(txns := s.txns[id := t']))
  {
    var s' := s.(txns := s.txns[id := t']);
    SameShapeIdents(s.txns[id], t');
    assert InFlightIds(s'.txns) == InFlightIds(s.txns);
  }

  /** Only the phases of transactions differ between `a` and `b`. */
  ghost predicate PhasesOnlyChanged(a: map<nat, Txn>, b: map<nat, Txn>) {
    && b.Keys == a.Keys
    && forall id :: id in a ==> b[id] == a[id].(phase := b[id].phase)
  }

  /** Moving a transaction to a phase other than `Fetching` keeps every part of `Inv` but the queue and the counter. */
  lemma SetPhaseKeepsShape(s: Bus, id: nat, p: Phase, s': Bus)
    requires Inv(s) && id in s.txns && !p.Fetching?
    requires s'.txns == s.txns[id := s.txns[id].(phase := p)]
    requires s'.byRecord == s.byRecord && s'.nextTxn == s.nextTxn && s'.subs == s.subs && s'.nextSub == s.nextSub
    ensures IdentsOwned(s') && IdentsLive(s') && TxnsWellFormed(s') && SubsWellFormed(s')
  {
  }

  /** A phase change between two unqueued phases leaves the queue consistent. */
  lemma SetPhaseKeepsQueue(s: Bus, id: nat, p: Phase, s': Bus)
    requires QueueResolves(s) && id in s.txns && !s.txns[id].phase.Queued? && !p.Queued?
    requires s'.txns == s.txns[id := s.txns[id].(phase := p)] && s'.putq == s.putq
    ensures QueueResolves(s')
  {
    forall j | 0 <= j < |s'.putq|
      ensures s'.putq[j] != id
    {
      assert s.txns[s.putq[j]].phase.Queued?;
    }
  }

  /** Queueing a transaction that was not queued, at the end of the queue, leaves the queue consistent. */
  lemma AppendKeepsQueue(s: Bus, id: nat, t: Txn, s': Bus)
    requires QueueResolves(s) && t.phase.Queued?
    requires id in s.txns ==> !s.txns[id].phase.Queued?
    requires s'.txns == s.txns[id := t] && s'.putq == s.putq + [id]
    ensures QueueResolves(s')
  {
    assert id !in s.putq;
    forall j | 0 <= j < |s'.putq|
      ensures s'.putq[j] in s'.txns && s'.txns[s'.putq[j]].phase.Queued?
    {
      if j < |s.putq| { assert s'.putq[j] == s.putq[j]; }
    }
    forall k | k in s'.txns && s'.txns[k].phase.Queued?
      ensures k in s'.putq
    {
      if k != id { assert k in s.putq; }
    }
  }

  /** A change confined to the read side keeps the invariant when subscription ids stay below the counter. */
  lemma ReadSideChangeKeepsInv(s: Bus, s': Bus)
    requires Inv(s) && WriteSideSame(s, s')
    requires forall id :: id in s'.subs ==> id < s'.nextSub
    ensures Inv(s')
  {
    assert InFlightIds(s'.txns) == InFlightIds(s.txns);
  }

  /** The read side (connection and subscriptions) is the same in both states. */
  ghost predicate ReadSideSame(s: Bus, s': Bus) {
    && s'.client == s.client
    && s'.connecting == s.connecting
    && s'.nextClient == s.nextClient
    && s'.subs == s.subs
    && s'.nextSub == s.nextSub
  }

  /** The write side is the same in both states. */
  ghost predicate WriteSideSame(s: Bus, s': Bus) {
    && s'.maxPuts == s.maxPuts
    && s'.pending == s.pending
    && s'.txns == s.txns
    && s'.putq == s.putq
    && s'.byRecord == s.byRecord
    && s'.nextTxn == s.nextTxn
  }
}

=== FILE: jsvalue.dfy ===
/**
 * The JavaScript values that flow through the bus: record values, per-record
 * write options, fetched objects and formatter arguments. Numbers are
 * integers only; floating point is outside the model.
 */
module JsValues {

  datatype JsValue =
    | Undefined
    | Null
    | Bool(b: bool)
    | Num(n: int)
    | Str(s: string)
    | Arr(elems: seq<JsValue>)
    | Obj(fields: map<string, JsValue>)

  /** JavaScript truthiness: `undefined`, `null`, `false`, `0` and `""` are falsy. */
  predicate Falsy(v: JsValue) {
    v == Undefined || v == Null || v == Bool(false) || v == Num(0) || v == Str("")
  }

  /** Property read `v[k]`: an absent property, or a non-object, reads as `undefined`. */
  function Get(v: JsValue, k: string): (r: JsValue)
    ensures v.Obj? && k in v.fields ==> r == v.fields[k]
    ensures !(v.Obj? && k in v.fields) ==> r == Undefined
  {
    if v.Obj? && k in v.fields then v.fields[k] else Undefined
  }

  /**
   * Property write `v[k] = x`. Writing a property of a primitive is silently
   * ignored by non-strict JavaScript. An array would gain the named property
   * in JavaScript; `Arr` carries only its elements, so the write is dropped
   * here too (listed under "Left out" in the README, at `Writes.Refreshed`).
   */
  function Set(v: JsValue, k: string, x: JsValue): (r: JsValue)
    ensures v.Obj? ==> r.Obj? && Get(r, k) == x
    ensures v.Obj? ==> forall k' :: k' in v.fields && k' != k ==> Get(r, k') == v.fields[k']
    ensures !v.Obj? ==> r == v
  {
    if v.Obj? then Obj(v.fields[k := x]) else v
  }

  /** The empty object literal `{}`. */
  const EmptyObject: JsValue := Obj(map[])
}

=== FILE: reads.dfy ===
/**
 * The read side of `MorayBus`: the idempotent connection guard and its client
 * events, the subscription registry (`subscribe`, `unsubscribe`,
 * `convertOneshot`, `oneshot`, `count`), and polling (`poll`, `pollOne`).
 * The query executor is outside the model: a poll hands out `PollRequest`s
 * and its successful completion comes back as `OnPollSucceeded`.
 */
module Reads {
  import opened Wrappers
  import opened JsValues
  import opened Throttles
  import opened Transactions
  import opened BusState

  // ---------------------------------------------------------------------------
  // connection

  /**
   * `connect()`: nothing happens while a client exists or one is being
   * created; otherwise the bus marks itself connecting and creates one client.
   */
  function Connect(s: Bus): (r: (Bus, seq<Effect>))
    ensures WriteSideSame(s, r.0) && r.0.subs == s.subs && r.0.nextSub == s.nextSub
    ensures r.0.client == s.client
    ensures r.1 == [] <==> s.client.Some? || s.connecting
    ensures r.1 == [] ==> r.0 == s
    ensures r.1 != [] ==> r.0.connecting && r.1 == [CreateClient(s.nextClient)] && r.0.nextClient > s.nextClient
  {
    if s.client.Some? || s.connecting then (s, [])
    else (s.(connecting := true, nextClient := s.nextClient + 1), [CreateClient(s.nextClient)])
  }

  /** A second `connect()` right after the first creates nothing: at most one client is being created. */
  lemma ConnectIdempotent(s: Bus)
    ensures Connect(Connect(s).0) == (Connect(s).0, [])
  {
  }

  /** Connecting touches neither the subscriptions nor the write side, so it keeps the invariant. */
  lemma ConnectKeepsInv(s: Bus)
    requires Inv(s)
    ensures Inv(Connect(s).0)
  {
    ReadSideChangeKeepsInv(s, Connect(s).0);
  }

  /**
   * The client's `connect` event: asserts that no other client is installed,
   * then installs `client` and clears the connecting flag.
   */
  function OnClientConnect(s: Bus, client: nat): (r: Result<Bus, Fatal>)
    ensures r.Ok? <==> s.client.None? || s.client == Some(client)
    ensures r.Ok? ==> && r.value.client == Some(client) && !r.value.connecting
                      && WriteSideSame(s, r.value) && r.value.subs == s.subs
                      && r.value.nextSub == s.nextSub && r.value.nextClient == s.nextClient
  {
    if s.client.Some? && s.client != Some(client) then
      Err(Fatal("a different client is already connected"))
    else
      Ok(s.(client := Some(client), connecting := false))
  }

  /** The client's `error` event: clears the connecting flag and nothing else. */
  function OnClientError(s: Bus): (s': Bus)
    ensures !s'.connecting && s'.client == s.client && s'.nextClient == s.nextClient
    ensures WriteSideSame(s, s') && s'.subs == s.subs && s'.nextSub == s.nextSub
  {
    s.(connecting := false)
  }

  /** After a client error with no client installed, the next `connect()` creates a fresh client. */
  lemma ErrorAllowsReconnect(s: Bus)
    requires s.client.None?
    ensures Connect(OnClientError(s)).1 == [CreateClient(s.nextClient)]
  {
  }

  /** Once a client is installed, `connect()` never creates another, whatever the flag says. */
  lemma ConnectedNeverReconnects(s: Bus, client: nat)
    requires OnClientConnect(s, client).Ok?
    ensures Connect(OnClientConnect(s, client).value).1 == []
    ensures Connect(OnClientError(OnClientConnect(s, client).value)).1 == []
  {
  }

  // ---------------------------------------------------------------------------
  // subscriptions

  /** The options `subscribe` accepts: an object with numeric `timePoll` and `limit`. */
  predicate ValidSubOptions(options: JsValue) {
    options.Obj? && Get(options, "timePoll").Num? && Get(options, "limit").Num?
  }

  /** `new MorayBusSubscription(bucket, query, options, onrecord)`, validating `options`. */
  function NewSubscription(bucket: string, query: int -> string, options: JsValue, onRecord: CallbackId)
    : (r: Result<Subscription, Fatal>)
    ensures r.Ok? <==> ValidSubOptions(options)
    ensures r.Ok? ==> && r.value.bucket == bucket && r.value.query == query
                      && r.value.limit == Get(options, "limit").n
                      && r.value.throttle == NewThrottle(Get(options, "timePoll").n)
                      && r.value.onRecord == onRecord && r.value.onSuccess.None?
  {
    if !options.Obj? then Err(Fatal("options must be an object"))
    else if !Get(options, "timePoll").Num? then Err(Fatal("options.timePoll must be a number"))
    else if !Get(options, "limit").Num? then Err(Fatal("options.limit must be a number"))
    else Ok(Subscription(bucket, query, Get(options, "limit").n, NewThrottle(Get(options, "timePoll").n), onRecord, None))
  }

  /** `subscribe(bucket, query, options, onrecord)`: registers a new subscription under a fresh id. */
  function Subscribe(s: Bus, bucket: string, query: int -> string, options: JsValue, onRecord: CallbackId)
    : (r: Result<(Bus, nat), Fatal>)
    ensures r.Ok? <==> ValidSubOptions(options)
    ensures r.Ok? ==> var (s', id) := r.value;
      && id == s.nextSub && s'.nextSub == s.nextSub + 1
      && s'.subs.Keys == s.subs.Keys + {id}
      && (forall k :: k in s.subs && k != id ==> s'.subs[k] == s.subs[k])
      && s'.subs[id].bucket == bucket && s'.subs[id].onRecord == onRecord && s'.subs[id].onSuccess.None?
      && s'.subs[id] == NewSubscription(bucket, query, options, onRecord).value
      && s'.client == s.client && s'.connecting == s.connecting && WriteSideSame(s, s')
  {
    var sub :- NewSubscription(bucket, query, options, onRecord);
    Ok((s.(subs := s.subs[s.nextSub := sub], nextSub := s.nextSub + 1), s.nextSub))
  }

  lemma SubscribeKeepsInv(s: Bus, bucket: string, query: int -> string, options: JsValue, onRecord: CallbackId)
    requires Inv(s) && ValidSubOptions(options)
    ensures Inv(Subscribe(s, bucket, query, options, onRecord).value.0)
    ensures Subscribe(s, bucket, query, options, onRecord).value.1 !in s.subs
  {
    ReadSideChangeKeepsInv(s, Subscribe(s, bucket, query, options, onRecord).value.0);
  }

  /**
   * `convertOneshot(id, ondone)`: arms the subscription's completion hook.
   * An unknown id is an error (the source dereferences a missing entry).
   */
  function ConvertOneshot(s: Bus, id: nat, onDone: CallbackId): (r: Result<Bus, Fatal>)
    ensures r.Ok? <==> id in s.subs
    ensures r.Ok? ==> && r.value.subs.Keys == s.subs.Keys
                      && r.value.subs[id].onSuccess == Some(onDone)
                      && r.value.subs[id] == s.subs[id].(onSuccess := Some(onDone))
                      && (forall k :: k in s.subs && k != id ==> r.value.subs[k] == s.subs[k])
                      && r.value.client == s.client && r.value.connecting == s.connecting
                      && r.value.nextSub == s.nextSub && WriteSideSame(s, r.value)
  {
    if id !in s.subs then Err(Fatal("no such subscription"))
    else Ok(s.(subs := s.subs[id := s.subs[id].(onSuccess := Some(onDone))]))
  }

  /**
   * `oneshot(...)`: `subscribe` followed by `convertOneshot` on the new id.
   * The code returns nothing; the id is returned here only so that lemmas
   * can name the new subscription.
   */
  function Oneshot(s: Bus, bucket: string, query: int -> string, options: JsValue, onRecord: CallbackId, onDone: CallbackId)
    : (r: Result<(Bus, nat), Fatal>)
    ensures r.Ok? <==> ValidSubOptions(options)
    ensures r.Ok? ==> var (s', id) := r.value;
      && id == s.nextSub && s'.subs.Keys == s.subs.Keys + {id}
      && s'.subs[id].onSuccess == Some(onDone) && s'.subs[id].onRecord == onRecord
      && s'.subs[id] == NewSubscription(bucket, query, options, onRecord).value.(onSuccess := Some(onDone))
      && WriteSideSame(s, s')
  {
    var (s1, id) :- Subscribe(s, bucket, query, options, onRecord);
    Ok((ConvertOneshot(s1, id, onDone).value, id))
  }

  /** `unsubscribe(id)`: asserts the subscription exists and removes it. */
  function Unsubscribe(s: Bus, id: nat): (r: Result<Bus, Fatal>)
    ensures r.Ok? <==> id in s.subs
    ensures r.Ok? ==> && r.value.subs.Keys == s.subs.Keys - {id}
                      && (forall k :: k in r.value.subs ==> r.value.subs[k] == s.subs[k])
                      && r.value.nextSub == s.nextSub && WriteSideSame(s, r.value)
  {
    if id !in s.subs then Err(Fatal("no such subscription"))
    else Ok(s.(subs := s.subs - {id}))
  }

  /** Unsubscribing right after subscribing gives back the subscription set and the write side. */
  lemma SubscribeThenUnsubscribe(s: Bus, bucket: string, query: int -> string, options: JsValue, onRecord: CallbackId)
    requires Inv(s) && ValidSubOptions(options)
    ensures var (s1, id) := Subscribe(s, bucket, query, options, onRecord).value;
      && Unsubscribe(s1, id).Ok?
      && Unsubscribe(s1, id).value.subs == s.subs
      && WriteSideSame(s, Unsubscribe(s1, id).value)
  {
    var (s1, id) := Subscribe(s, bucket, query, options, onRecord).value;
    assert id !in s.subs;
    assert Unsubscribe(s1, id).value.subs == s.subs;
  }

  // ---------------------------------------------------------------------------
  // polling

  /**
   * `pollOne` on one subscription at time `now`, given whether its barrier
   * still has records pending. The barrier is checked first and leaves the
   * throttle untouched; then the throttle is consulted; only when both let it
   * through is a request issued, carrying the completion hook armed AT THIS
   * MOMENT.
   */
  function PollSub(client: nat, id: nat, sub: Subscription, busy: bool, now: int): (r: (Subscription, Option<PollRequest>))
    ensures busy ==> r.0 == sub && r.1.None?
    ensures r.1.Some? <==> !busy && !TooRecent(sub.throttle, now).0
    ensures !busy ==> r.0.throttle == TooRecent(sub.throttle, now).1
    ensures r.0 == sub.(throttle := r.0.throttle)
    ensures r.1.Some? ==>
      && r.0.throttle.last == Some(now)
      && r.1.value.client == client && r.1.value.bucket == sub.bucket && r.1.value.limit == sub.limit
      && r.1.value.noCache && r.1.value.now == now && r.1.value.filter == sub.query(now)
      && r.1.value.onRecord == sub.onRecord
      && (r.1.value.onDone.Some? <==> sub.onSuccess.Some?)
      && (sub.onSuccess.Some? ==> r.1.value.onDone == Some(Hook(id, sub.onSuccess.value)))
  {
    if busy then (sub, None)
    else
      var (tooRecent, throttle) := TooRecent(sub.throttle, now);
      if tooRecent then (sub, None)
      else
        var hook := if sub.onSuccess.Some? then Some(Hook(id, sub.onSuccess.value)) else None;
        (sub.(throttle := throttle),
         Some(PollRequest(client, sub.bucket, sub.limit, true, now, sub.query(now), sub.onRecord, hook)))
  }

  /** A subscription that just issued a request issues nothing more until its interval has elapsed. */
  lemma PollSpacing(client: nat, id: nat, sub: Subscription, now: int, later: int)
    requires PollSub(client, id, sub, false, now).1.Some?
    requires now <= later < now + sub.throttle.interval
    ensures PollSub(client, id, PollSub(client, id, sub, false, now).0, false, later).1.None?
  {
    GateSpacing(sub.throttle, now, later);
  }

  /** `pollOne(subscrip, now)` on the subscription registered under `id`. */
  function PollOne(s: Bus, id: nat, busy: bool, now: int): (r: (Bus, Option<PollRequest>))
    requires s.client.Some? && id in s.subs
    ensures WriteSideSame(s, r.0) && r.0.client == s.client && r.0.connecting == s.connecting
    ensures r.0.subs.Keys == s.subs.Keys && r.0.nextSub == s.nextSub
    ensures forall k :: k in s.subs && k != id ==> r.0.subs[k] == s.subs[k]
    ensures (r.0.subs[id], r.1) == PollSub(s.client.value, id, s.subs[id], busy, now)
  {
    var (sub, req) := PollSub(s.client.value, id, s.subs[id], busy, now);
    (s.(subs := s.subs[id := sub]), req)
  }

  /** `order` lists each key of `keys` exactly once (the enumeration order of `for ... in`). */
  ghost predicate Enumerates(order: seq<nat>, keys: set<nat>) {
    && (forall i, j :: 0 <= i < j < |order| ==> order[i] != order[j])
    && (forall k :: k in keys <==> k in order)
  }

  /** The request issued for subscription `k`, if any. */
  function Issued(reqs: map<nat, PollRequest>, k: nat): Option<PollRequest> {
    if k in reqs then Some(reqs[k]) else None
  }

  /** `pollOne` on each subscription listed in `order`, in that order. */
  function PollEach(client: nat, subs: map<nat, Subscription>, order: seq<nat>, busy: set<nat>, now: int)
    : (r: (map<nat, Subscription>, map<nat, PollRequest>))
    requires forall i :: 0 <= i < |order| ==> order[i] in subs
    requires forall i, j :: 0 <= i < j < |order| ==> order[i] != order[j]
    ensures r.0.Keys == subs.Keys && r.1.Keys <= subs.Keys
    decreases |order|
  {
    if order == [] then (subs, map[])
    else
      var k := order[0];
      var (sub, req) := PollSub(client, k, subs[k], k in busy, now);
      var rest := order[1..];
      assert forall i :: 0 <= i < |rest| ==> rest[i] == order[i + 1];
      var (subs', reqs) := PollEach(client, subs[k := sub], rest, busy, now);
      (subs', if req.Some? then reqs[k := req.value] else reqs)
  }

  /** A subscription not listed is neither changed nor polled. */
  lemma {:induction false} PollEachSkips(client: nat, subs: map<nat, Subscription>, order: seq<nat>, busy: set<nat>, now: int, k: nat)
    requires forall i :: 0 <= i < |order| ==> order[i] in subs
    requires forall i, j :: 0 <= i < j < |order| ==> order[i] != order[j]
    requires k in subs && k !in order
    ensures PollEach(client, subs, order, busy, now).0[k] == subs[k]
    ensures k !in PollEach(client, subs, order, busy, now).1
    decreases |order|
  {
    if order != [] {
      var k0 := order[0];
      var sub := PollSub(client, k0, subs[k0], k0 in busy, now).0;
      var rest := order[1..];
      assert forall i :: 0 <= i < |rest| ==> rest[i] == order[i + 1];
      assert k !in rest;
      PollEachSkips(client, subs[k0 := sub], rest, busy, now, k);
    }
  }

  /**
   * Each listed subscription ends up, and issues, exactly what `pollOne`
   * on it alone would give: one `pollOne` touches only its own subscription.
   */
  lemma {:induction false} PollEachAlone(client: nat, subs: map<nat, Subscription>, order: seq<nat>, busy: set<nat>, now: int, i: nat)
    requires forall i :: 0 <= i < |order| ==> order[i] in subs
    requires forall i, j :: 0 <= i < j < |order| ==> order[i] != order[j]
    requires i < |order|
    ensures var r := PollEach(client, subs, order, busy, now);
      (r.0[order[i]], Issued(r.1, order[i])) == PollSub(client, order[i], subs[order[i]], order[i] in busy, now)
    decreases |order|
  {
    var k0 := order[0];
    var (sub, req) := PollSub(client, k0, subs[k0], k0 in busy, now);
    var rest := order[1..];
    assert forall i :: 0 <= i < |rest| ==> rest[i] == order[i + 1];
    var subs1 := subs[k0 := sub];
    if i == 0 {
      assert k0 !in rest;
      PollEachSkips(client, subs1, rest, busy, now, k0);
    } else {
      assert rest[i - 1] == order[i] != k0;
      PollEachAlone(client, subs1, rest, busy, now, i - 1);
    }
  }

  /**
   * `poll(now)`: with no client, connect and poll nothing; otherwise
   * `pollOne` every subscription in enumeration order.
   */
  function Poll(s: Bus, order: seq<nat>, busy: set<nat>, now: int): (r: (Bus, seq<Effect>, map<nat, PollRequest>))
    requires Enumerates(order, s.subs.Keys)
    ensures s.client.None? ==> (r.0, r.1) == Connect(s) && r.2 == map[]
    ensures s.client.Some? ==> r.1 == [] && r.2.Keys <= s.subs.Keys
    ensures s.client.Some? ==>
      && WriteSideSame(s, r.0) && r.0.client == s.client && r.0.connecting == s.connecting
      && r.0.subs.Keys == s.subs.Keys && r.0.nextSub == s.nextSub
  {
    if s.client.None? then
      var (s', effects) := Connect(s);
      (s', effects, map[])
    else
      var (subs', reqs) := PollEach(s.client.value, s.subs, order, busy, now);
      (s.(subs := subs'), [], reqs)
  }

  /**
   * With a client, every subscription ends up exactly as if it had been
   * polled alone, whatever the enumeration order.
   */
  lemma PollPollsEachAlone(s: Bus, order: seq<nat>, busy: set<nat>, now: int, k: nat)
    requires Enumerates(order, s.subs.Keys) && s.client.Some? && k in s.subs
    ensures var r := Poll(s, order, busy, now);
      (r.0.subs[k], Issued(r.2, k)) == PollSub(s.client.value, k, s.subs[k], k in busy, now)
  {
    var i :| 0 <= i < |order| && order[i] == k;
    PollEachAlone(s.client.value, s.subs, order, busy, now, i);
  }

  lemma PollKeepsInv(s: Bus, order: seq<nat>, busy: set<nat>, now: int)
    requires Inv(s) && Enumerates(order, s.subs.Keys)
    ensures Inv(Poll(s, order, busy, now).0)
  {
    if s.client.None? {
      ConnectKeepsInv(s);
    } else {
      ReadSideChangeKeepsInv(s, Poll(s, order, busy, now).0);
    }
  }

  /**
   * A poll request completed successfully. If it was issued with the
   * one-shot hook armed, the subscription is removed and then the hook's
   * callback is notified; otherwise nothing happens.
   */
  function OnPollSucceeded(s: Bus, req: PollRequest): (r: (Bus, seq<Effect>))
    ensures WriteSideSame(s, r.0) && r.0.client == s.client && r.0.nextSub == s.nextSub
    ensures req.onDone.None? ==> r.0 == s && r.1 == []
    ensures req.onDone.Some? ==>
      && r.0.subs.Keys == s.subs.Keys - {req.onDone.value.sub}
      && (forall k :: k in r.0.subs ==> r.0.subs[k] == s.subs[k])
      && r.1 == [Notify(req.onDone.value.onDone)]
  {
    match req.onDone
    case None => (s, [])
    case Some(hook) => (s.(subs := s.subs - {hook.sub}), [Notify(hook.onDone)])
  }

  /**
   * The one-shot contract: a request already issued when `convertOneshot`
   * is called does not complete the one-shot, even if it succeeds; the
   * subscription survives it, and the next request issued carries the hook,
   * whose success removes the subscription and notifies `onDone`.
   */
  lemma HookCapturedAtIssue(s: Bus, id: nat, now: int, onDone: CallbackId)
    requires s.client.Some? && id in s.subs && s.subs[id].onSuccess.None?
    requires PollOne(s, id, false, now).1.Some?
    ensures var (s1, req) := PollOne(s, id, false, now);
            var s2 := ConvertOneshot(s1, id, onDone).value;
      && OnPollSucceeded(s2, req.value).1 == []
      && id in OnPollSucceeded(s2, req.value).0.subs
  {
  }

  /** After `convertOneshot`, the next request issued carries the hook, and its success removes the subscription. */
  lemma NextPollCompletesOneshot(s: Bus, id: nat, later: int, onDone: CallbackId)
    requires s.client.Some? && id in s.subs
    requires PollOne(ConvertOneshot(s, id, onDone).value, id, false, later).1.Some?
    ensures var s2 := ConvertOneshot(s, id, onDone).value;
            var (s3, req) := PollOne(s2, id, false, later);
      && req.value.onDone == Some(Hook(id, onDone))
      && id !in OnPollSucceeded(s3, req.value).0.subs
      && OnPollSucceeded(s3, req.value).1 == [Notify(onDone)]
  {
  }

  // ---------------------------------------------------------------------------
  // count

  /**
   * The options `count` polls with: derived from the caller's object with
   * `limit` forced to 1; the caller's own value is left as it was.
   */
  function CountOptions(options: JsValue): (r: Result<JsValue, Fatal>)
    ensures r.Ok? <==> options.Obj?
    ensures r.Ok? ==> && r.value.Obj? && Get(r.value, "limit") == Num(1)
                      && forall k :: k != "limit" ==> Get(r.value, k) == Get(options, k)
  {
    if options.Obj? then Ok(Set(options, "limit", Num(1)))
    else Err(Fatal("options must be an object"))
  }

  /** `count(bucket, query, uoptions, ...)`: a one-shot over the derived options. */
  function Count(s: Bus, bucket: string, query: int -> string, options: JsValue, onRecord: CallbackId, onDone: CallbackId)
    : (r: Result<(Bus, nat), Fatal>)
    ensures r.Ok? <==> options.Obj? && Get(options, "timePoll").Num?
    ensures r.Ok? ==> var (s', id) := r.value;
      && s'.subs.Keys == s.subs.Keys + {id} && s'.subs[id].limit == 1
      && s'.subs[id].onSuccess == Some(onDone) && WriteSideSame(s, s')
  {
    var derived :- CountOptions(options);
    Oneshot(s, bucket, query, derived, onRecord, onDone)
  }

  /** What `count`'s two closures see: a delivered record, or the one-shot's completion. */
  datatype CountEvent = RecordSeen(record: JsValue) | QueryDone

  /**
   * The shared `done` flag of `count`'s closures: the first event calls back
   * (`_count` of the record, or 0 on completion) and sets the flag; every
   * later event is ignored.
   */
  function CountStep(done: bool, e: CountEvent): (r: (bool, Option<JsValue>))
    ensures r.0
    ensures done ==> r.1.None?
    ensures !done ==> r.1 == Some(if e.RecordSeen? then Get(e.record, "_count") else Num(0))
  {
    if done then (true, None)
    else match e
      case RecordSeen(record) => (true, Some(Get(record, "_count")))
      case QueryDone => (true, Some(Num(0)))
  }

  /** The callbacks `count` makes over a run of events, starting from flag `done`. */
  function CountRun(done: bool, events: seq<CountEvent>): seq<JsValue>
    decreases |events|
  {
    if events == [] then []
    else
      var (done', out) := CountStep(done, events[0]);
      (if out.Some? then [out.value] else []) + CountRun(done', events[1..])
  }

  /**
   * `count` calls back at most once: exactly once if any event arrives, with
   * the first record's `_count`, or 0 if the completion came first.
   */
  lemma {:induction false} CountCallsBackOnce(events: seq<CountEvent>)
    ensures |CountRun(false, events)| == (if events == [] then 0 else 1)
    ensures events != [] ==>
      CountRun(false, events)[0] == (if events[0].RecordSeen? then Get(events[0].record, "_count") else Num(0))
  {
    if events != [] {
      CountSilentOnceDone(events[1..]);
    }
  }

  /** Once the flag is set, no event calls back. */
  lemma {:induction false} CountSilentOnceDone(events: seq<CountEvent>)
    ensures CountRun(true, events) == []
    decreases |events|
  {
    if events != [] {
      CountSilentOnceDone(events[1..]);
    }
  }
}

=== FILE: sprintf.dfy ===
/**
 * The printf-style formatter of lib/jsutil.js (`jsSprintf` and its padding
 * helper `doPad`) and the message composition of the `jsError` class.
 *
 * A directive has the shape
 *     % flags width? (. precision)? length-modifiers conversion
 * The source finds directives with an unanchored regular expression; the
 * model reads the same grammar with a scanner anchored at each `%`. A `%`
 * that begins no directive ends the model's run as `Unmodelled`; `WellFormed`
 * says that no `%` of a format does so (see README for what the unanchored
 * search does instead).
 */
module Sprintf {
  import opened Wrappers
  import opened JsValues

  /** How a call ends: with a value, by throwing `Error(message)`, or in a case outside the model. */
  datatype Outcome<+T> = Done(value: T) | Thrown(message: string) | Unmodelled(what: string)

  /** The character classes of the directive grammar. */
  datatype CharClass = Flag | Digit | LengthMod

  predicate InClass(c: char, k: CharClass) {
    match k
    case Flag => IsFlag(c)
    case Digit => IsDigit(c)
    case LengthMod => IsLengthMod(c)
  }

  /** Every character of `s` is in class `k`. */
  predicate AllOf(s: string, k: CharClass)
    decreases |s|
  {
    s == [] || (InClass(s[0], k) && AllOf(s[1..], k))
  }

  predicate NoPercent(s: string) {
    forall k :: 0 <= k < |s| ==> s[k] != '%'
  }

  // ---------------------------------------------------------------------
  // Decimal numerals

  predicate IsDigit(c: char) {
    '0' <= c <= '9'
  }

  predicate IsNonzeroDigit(c: char) {
    '1' <= c <= '9'
  }

  /** A decimal numeral without leading zeros, as the width and precision fields require. */
  predicate Numeral(s: string) {
    |s| > 0 && IsNonzeroDigit(s[0]) && AllOf(s, Digit)
  }

  function DigitChar(d: nat): (c: char)
    requires d < 10
    ensures IsDigit(c)
  {
    (('0' as int) + d) as char
  }

  function DigitValue(c: char): nat {
    if IsDigit(c) then (c as int) - ('0' as int) else 0
  }

  /** The value of a string of decimal digits. */
  function DigitsValue(s: string): nat {
    if s == [] then 0 else 10 * DigitsValue(s[..|s| - 1]) + DigitValue(s[|s| - 1])
  }

  /** `String(n)` for a natural number. */
  function NatToString(n: nat): (r: string)
    ensures |r| >= 1
    ensures |r| > 1 ==> r[0] != '0'
    ensures forall i :: 0 <= i < |r| ==> IsDigit(r[i])
    decreases n
  {
    if n < 10 then [DigitChar(n)] else NatToString(n / 10) + [DigitChar(n % 10)]
  }

  /** Reading back a printed number gives the number. */
  lemma {:induction false} NatToStringRoundTrip(n: nat)
    ensures DigitsValue(NatToString(n)) == n
    decreases n
  {
    if n >= 10 {
      var front := NatToString(n / 10);
      var r := NatToString(n);
      assert r == front + [DigitChar(n % 10)];
      assert r[..|r| - 1] == front;
      NatToStringRoundTrip(n / 10);
    }
  }

  /** A numeral as `String` prints it: digits without a leading zero. */
  predicate Printed(digits: string) {
    && |digits| >= 1
    && (|digits| > 1 ==> digits[0] != '0')
    && forall i :: 0 <= i < |digits| ==> IsDigit(digits[i])
  }

  function Abs(n: int): nat {
    if n < 0 then -n else n
  }

  /**
   * `String(n)` for an integer-valued number: a minus sign exactly for
   * negative numbers, then the digits of the magnitude.
   */
  function IntToString(n: int): (r: string)
    ensures |r| >= 1 && (r[0] == '-' <==> n < 0)
    ensures var digits := if n < 0 then r[1..] else r;
      Printed(digits) && DigitsValue(digits) == Abs(n)
  {
    NatToStringRoundTrip(Abs(n));
    var digits := NatToString(Abs(n));
    var r := if n < 0 then "-" + digits else digits;
    assert n < 0 ==> r[1..] == digits;
    r
  }

  /**
   * JavaScript prints an integer-valued number as its exact decimal digits
   * while its magnitude is at most 2^53, where every integer is a number of
   * its own; beyond that it prints the shortest digits that round back.
   */
  const MaxSafe: int := 9_007_199_254_740_992

  predicate PrintsPlain(n: int) {
    -MaxSafe <= n <= MaxSafe
  }

  // ---------------------------------------------------------------------
  // doPad

  /** How many UTF-16 code units `c` takes: two outside the Basic Multilingual Plane. */
  function Units(c: char): nat {
    if c as int > 0xFFFF then 2 else 1
  }

  /** JavaScript's `s.length`: the number of UTF-16 code units of `s`. */
  function Utf16Length(s: string): nat
    decreases |s|
  {
    if s == [] then 0 else Units(s[0]) + Utf16Length(s[1..])
  }

  lemma {:induction false} Utf16Append(a: string, b: string)
    ensures Utf16Length(a + b) == Utf16Length(a) + Utf16Length(b)
    decreases |a|
  {
    if a == [] {
      assert a + b == b;
    } else {
      assert (a + b)[0] == a[0] && (a + b)[1..] == a[1..] + b;
      Utf16Append(a[1..], b);
    }
  }

  function Repeat(c: char, n: nat): (r: string)
    ensures |r| == n
    ensures forall i :: 0 <= i < n ==> r[i] == c
  {
    if n == 0 then [] else [c] + Repeat(c, n - 1)
  }

  /**
   * How many copies of `chr` `doPad` adds to `str`: the fewest that bring
   * its length to `width` code units or more.
   */
  function Reps(chr: char, width: nat, str: string): nat {
    var len := Utf16Length(str);
    if len >= width then 0 else (width - len + Units(chr) - 1) / Units(chr)
  }

  /** One more copy of `chr` leaves one fewer to add. */
  lemma RepsStep(chr: char, width: nat, str: string, grown: string)
    requires Utf16Length(str) < width
    requires Utf16Length(grown) == Utf16Length(str) + Units(chr)
    ensures Reps(chr, width, grown) + 1 == Reps(chr, width, str)
  {
    var g := width - Utf16Length(str);
    if Units(chr) == 1 {
      assert Reps(chr, width, str) == g;
    } else {
      assert Reps(chr, width, str) == (g + 1) / 2;
      if Utf16Length(grown) < width {
        assert Reps(chr, width, grown) == (g - 1) / 2;
      }
    }
  }

  /** Adding one `chr` on either side adds its code units to the length. */
  lemma GrowOne(chr: char, left: bool, str: string)
    ensures Utf16Length(if left then str + [chr] else [chr] + str) == Utf16Length(str) + Units(chr)
  {
    Utf16Append(str, [chr]);
    Utf16Append([chr], str);
    assert Utf16Length([chr]) == Units(chr) by { assert [chr][1..] == []; }
  }

  /** The padding of `str` is one `chr` more than the padding of `str` grown by that `chr`. */
  lemma PadStep(chr: char, width: nat, left: bool, str: string, r: string)
    requires Utf16Length(str) < width
    requires var grown := if left then str + [chr] else [chr] + str;
      && Utf16Length(grown) == Utf16Length(str) + Units(chr)
      && (left ==> r == grown + Repeat(chr, Reps(chr, width, grown)))
      && (!left ==> r == Repeat(chr, Reps(chr, width, grown)) + grown)
    ensures left ==> r == str + Repeat(chr, Reps(chr, width, str))
    ensures !left ==> r == Repeat(chr, Reps(chr, width, str)) + str
  {
    var grown := if left then str + [chr] else [chr] + str;
    RepsStep(chr, width, str, grown);
    GrowByRepeat(chr, Reps(chr, width, grown), str);
  }

  /** One `chr` next to `str` and `n` more beyond it are `n + 1` copies. */
  lemma GrowByRepeat(chr: char, n: nat, str: string)
    ensures (str + [chr]) + Repeat(chr, n) == str + Repeat(chr, n + 1)
    ensures Repeat(chr, n) + ([chr] + str) == Repeat(chr, n + 1) + str
  {
    assert [chr] + Repeat(chr, n) == Repeat(chr, n + 1);
    assert Repeat(chr, n) + [chr] == Repeat(chr, n + 1);
  }

  /**
   * `doPad(chr, width, left, str)`: adds `chr` on the right (when `left`) or
   * on the left, one at a time, while `str` is shorter than `width` code
   * units.
   */
  function DoPad(chr: char, width: nat, left: bool, str: string): (r: string)
    ensures left ==> r == str + Repeat(chr, Reps(chr, width, str))
    ensures !left ==> r == Repeat(chr, Reps(chr, width, str)) + str
    decreases width - Utf16Length(str)
  {
    if Utf16Length(str) >= width then str
    else
      GrowOne(chr, left, str);
      var r := DoPad(chr, width, left, if left then str + [chr] else [chr] + str);
      PadStep(chr, width, left, str, r);
      r
  }

  /**
   * `out` is `x` with copies of `c` added (after `x` when `left`, before it
   * otherwise) until it is at least `w` code units long, and no copy more.
   */
  predicate PaddedTo(out: string, x: string, c: char, w: nat, left: bool) {
    && |out| >= |x|
    && (left ==> out[..|x|] == x && forall i :: |x| <= i < |out| ==> out[i] == c)
    && (!left ==> out[|out| - |x|..] == x && forall i :: 0 <= i < |out| - |x| ==> out[i] == c)
    && Utf16Length(out) == Utf16Length(x) + (|out| - |x|) * Units(c)
    && (Utf16Length(x) < w ==> Utf16Length(out) >= w)
    && (|out| > |x| ==> Utf16Length(out) - Units(c) < w)
  }

  lemma {:induction false} Utf16Repeat(c: char, n: nat)
    ensures Utf16Length(Repeat(c, n)) == n * Units(c)
  {
    if n > 0 {
      assert Repeat(c, n)[1..] == Repeat(c, n - 1);
      Utf16Repeat(c, n - 1);
    }
  }

  /** The shape `doPad` promises; a string already `width` units long comes back unchanged. */
  lemma DoPadShape(chr: char, width: nat, left: bool, str: string)
    ensures PaddedTo(DoPad(chr, width, left, str), str, chr, width, left)
    ensures Utf16Length(str) >= width ==> DoPad(chr, width, left, str) == str
  {
    var r := DoPad(chr, width, left, str);
    var n := Reps(chr, width, str);
    var u := Units(chr);
    var pad := Repeat(chr, n);
    Utf16Repeat(chr, n);
    if left {
      Utf16Append(str, pad);
      assert r[..|str|] == str;
      assert forall i :: |str| <= i < |r| ==> r[i] == pad[i - |str|];
    } else {
      Utf16Append(pad, str);
      assert r[n..] == str;
    }
    assert Utf16Length(r) == Utf16Length(str) + n * u;
    RepsReach(chr, width, str);
  }

  /** The copies `doPad` adds reach `width`, and one fewer would not. */
  lemma RepsReach(chr: char, width: nat, str: string)
    ensures var n := Reps(chr, width, str);
      Utf16Length(str) < width ==>
        && Utf16Length(str) + n * Units(chr) >= width
        && Utf16Length(str) + (n - 1) * Units(chr) < width
  {
    if Utf16Length(str) < width {
      var g := width - Utf16Length(str);
      var n := Reps(chr, width, str);
      if Units(chr) == 1 { assert n == g; } else { assert n == (g + 1) / 2; }
    }
  }

  // ---------------------------------------------------------------------
  // Directives

  predicate IsFlag(c: char) {
    c == '\'' || c == '-' || c == '+' || c == ' ' || c == '#' || c == '0'
  }

  /**
   * Length modifiers are accepted and ignored. The source matches them
   * lazily, so a `j` is always taken as the conversion, never as a modifier.
   */
  predicate IsLengthMod(c: char) {
    c == 'l' || c == 'h' || c == 'z' || c == 't' || c == 'L'
  }

  predicate IsConversion(c: char) {
    || c == 'd' || c == 'i' || c == 'o' || c == 'u' || c == 'x' || c == 'X'
    || c == 'f' || c == 'F' || c == 'e' || c == 'E' || c == 'g' || c == 'G'
    || c == 'a' || c == 'A' || c == 'c' || c == 'C' || c == 's' || c == 'S'
    || c == 'p' || c == '%' || c == 'j' || c == 'r'
  }

  /** One directive, its fields as written; `precision` holds the digits after the dot. */
  datatype Directive = Directive(flags: string, width: string, precision: string, mods: string, conv: char)

  predicate ValidDirective(d: Directive) {
    && AllOf(d.flags, Flag)
    && (d.width == [] || Numeral(d.width))
    && (d.precision == [] || Numeral(d.precision))
    && AllOf(d.mods, LengthMod)
    && IsConversion(d.conv)
  }

  /** The precision field as written: empty, or a dot and the digits. */
  function PrecisionText(digits: string): string {
    if digits == [] then [] else ['.'] + digits
  }

  /** The text of a directive after its `%`. */
  function RenderBody(d: Directive): string {
    d.flags + d.width + PrecisionText(d.precision) + d.mods + [d.conv]
  }

  /** The text of a directive. */
  function Render(d: Directive): string {
    ['%'] + RenderBody(d)
  }

  /** Splits `s` into its longest prefix of characters satisfying `k` and the rest. */
  function TakeWhile(s: string, k: CharClass): (r: (string, string))
    ensures r.0 + r.1 == s
    ensures AllOf(r.0, k)
    ensures r.1 != [] ==> !InClass(r.1[0], k)
  {
    if s == [] || !InClass(s[0], k) then ([], s)
    else
      var r := TakeWhile(s[1..], k);
      var run := [s[0]] + r.0;
      assert run[0] == s[0] && run[1..] == r.0;
      assert run + r.1 == [s[0]] + (r.0 + r.1) == s;
      (run, r.1)
  }

  /** `TakeWhile` stops exactly where the run of `k` ends. */
  lemma {:induction false} TakeWhileOf(a: string, t: string, k: CharClass)
    requires AllOf(a, k) && t != [] && !InClass(t[0], k)
    ensures TakeWhile(a + t, k) == (a, t)
  {
    if a == [] {
      assert a + t == t;
    } else {
      assert (a + t)[0] == a[0];
      assert (a + t)[1..] == a[1..] + t;
      TakeWhileOf(a[1..], t, k);
      assert [a[0]] + a[1..] == a;
    }
  }

  /** A width or precision numeral at the front of `s`, if one starts there. */
  function ScanNumeral(s: string): (r: (string, string))
    ensures r.0 + r.1 == s
    ensures r.0 == [] || Numeral(r.0)
  {
    if s != [] && IsNonzeroDigit(s[0]) then
      var r := TakeWhile(s[1..], Digit);
      assert s == [s[0]] + s[1..];
      ([s[0]] + r.0, r.1)
    else ([], s)
  }

  lemma ScanNumeralOf(n: string, t: string)
    requires n == [] || Numeral(n)
    requires t != [] && !IsDigit(t[0])
    ensures ScanNumeral(n + t) == (n, t)
  {
    if n != [] {
      assert (n + t)[1..] == n[1..] + t;
      TakeWhileOf(n[1..], t, Digit);
      assert [n[0]] + n[1..] == n;
    } else {
      assert n + t == t;
    }
  }

  /** A precision `.digits` at the front of `s`; the first component holds the digits. */
  function ScanPrecision(s: string): (r: (string, string))
    ensures r.0 == [] || Numeral(r.0)
    ensures s == PrecisionText(r.0) + r.1
  {
    if |s| >= 2 && s[0] == '.' && IsNonzeroDigit(s[1]) then
      var r := ScanNumeral(s[1..]);
      assert s == ['.'] + s[1..];
      assert r.0 != [];
      r
    else
      assert s == [] + s;
      ([], s)
  }

  lemma ScanPrecisionOf(p: string, t: string)
    requires p == [] || Numeral(p)
    requires t != [] && t[0] != '.' && !IsDigit(t[0])
    ensures ScanPrecision(PrecisionText(p) + t) == (p, t)
  {
    if p == [] {
      assert PrecisionText(p) + t == t;
    } else {
      var s := PrecisionText(p) + t;
      assert s[1..] == p + t;
      ScanNumeralOf(p, t);
    }
  }

  /** The pieces of a directive's text, front to back, make up its text. */
  lemma BodyParts(d: Directive, s: string, s1: string, s2: string, s3: string, rest: string)
    requires s == d.flags + s1 && s1 == d.width + s2 && s2 == PrecisionText(d.precision) + s3
    requires s3 == d.mods + ([d.conv] + rest)
    ensures s == RenderBody(d) + rest
  {
  }

  /** The parts `ScanDirective` reads make a well-formed directive whose text, and a shorter rest, make up `s`. */
  lemma ScannedParts(s: string, d: Directive, flags: (string, string), width: (string, string),
                     precision: (string, string), mods: (string, string))
    requires s == flags.0 + flags.1 && AllOf(flags.0, Flag)
    requires flags.1 == width.0 + width.1 && (width.0 == [] || Numeral(width.0))
    requires width.1 == PrecisionText(precision.0) + precision.1 && (precision.0 == [] || Numeral(precision.0))
    requires precision.1 == mods.0 + mods.1 && AllOf(mods.0, LengthMod)
    requires mods.1 != [] && IsConversion(mods.1[0])
    requires d == Directive(flags.0, width.0, precision.0, mods.0, mods.1[0])
    ensures ValidDirective(d) && s == RenderBody(d) + mods.1[1..]
    ensures |mods.1[1..]| < |s|
  {
    ScannedPartsValid(d, flags, width, precision, mods);
    assert mods.1 == [mods.1[0]] + mods.1[1..];
    BodyParts(d, s, flags.1, width.1, precision.1, mods.1[1..]);
    assert |RenderBody(d)| >= 1;
  }

  /**
   * Reads one directive from `s`, the text after a `%`. On success the
   * directive is well-formed and `s` is its text followed by the remainder.
   */
  function ScanDirective(s: string): (r: Option<(Directive, string)>)
    ensures r.Some? ==> ValidDirective(r.value.0) && s == RenderBody(r.value.0) + r.value.1
    ensures r.Some? ==> |r.value.1| < |s|
  {
    var flags := TakeWhile(s, Flag);
    var width := ScanNumeral(flags.1);
    var precision := ScanPrecision(width.1);
    var mods := TakeWhile(precision.1, LengthMod);
    var tail := mods.1;
    if tail != [] && IsConversion(tail[0]) then
      var d := Directive(flags.0, width.0, precision.0, mods.0, tail[0]);
      ScannedParts(s, d, flags, width, precision, mods);
      Some((d, tail[1..]))
    else None
  }

  /** A directive's text from its length modifiers on begins with a modifier or the conversion. */
  lemma ModsHead(d: Directive, rest: string)
    requires ValidDirective(d)
    ensures var t := d.mods + ([d.conv] + rest);
            t != [] && !IsFlag(t[0]) && !IsDigit(t[0]) && t[0] != '.'
  {
    var t := d.mods + ([d.conv] + rest);
    assert t[0] == (if d.mods == [] then d.conv else d.mods[0]);
  }

  /** ... from its precision on, with a dot or as above. */
  lemma PrecisionHead(d: Directive, t: string)
    requires t != [] && !IsFlag(t[0]) && !IsDigit(t[0])
    ensures var u := PrecisionText(d.precision) + t;
            u != [] && !IsFlag(u[0]) && !IsDigit(u[0])
  {
    var u := PrecisionText(d.precision) + t;
    assert u[0] == (if d.precision == [] then t[0] else '.');
  }

  /** ... from its width on, with a non-zero digit or as above. */
  lemma WidthHead(d: Directive, t: string)
    requires ValidDirective(d)
    requires t != [] && !IsFlag(t[0])
    ensures var u := d.width + t;
            u != [] && !IsFlag(u[0])
  {
    var u := d.width + t;
    assert u[0] == (if d.width == [] then t[0] else d.width[0]);
  }

  lemma ScannedPartsValid(d: Directive, flags: (string, string), width: (string, string),
                          precision: (string, string), mods: (string, string))
    requires AllOf(flags.0, Flag) && (width.0 == [] || Numeral(width.0))
    requires precision.0 == [] || Numeral(precision.0)
    requires AllOf(mods.0, LengthMod) && mods.1 != [] && IsConversion(mods.1[0])
    requires d == Directive(flags.0, width.0, precision.0, mods.0, mods.1[0])
    ensures ValidDirective(d)
  {
  }

  /** A directive's text followed by `rest`, regrouped from the right. */
  lemma RenderBodyThen(d: Directive, rest: string)
    ensures RenderBody(d) + rest == d.flags + (d.width + (PrecisionText(d.precision) + (d.mods + ([d.conv] + rest))))
  {
  }

  /** Scanning the text of a well-formed directive gives back that directive, whatever follows it. */
  lemma ScanRendered(d: Directive, rest: string)
    requires ValidDirective(d)
    ensures ScanDirective(RenderBody(d) + rest) == Some((d, rest))
  {
    var c := [d.conv] + rest;
    var t3 := d.mods + c;
    var t2 := PrecisionText(d.precision) + t3;
    var t1 := d.width + t2;
    RenderBodyThen(d, rest);
    ModsHead(d, rest);
    PrecisionHead(d, t3);
    WidthHead(d, t2);
    TakeWhileOf(d.flags, t1, Flag);
    ScanNumeralOf(d.width, t2);
    ScanPrecisionOf(d.precision, t3);
    TakeWhileOf(d.mods, c, LengthMod);
  }

  // ---------------------------------------------------------------------
  // jsSprintf

  /** The position of the first `%` of `s`, if any. */
  function FindPercent(s: string): (r: Option<nat>)
    ensures r.None? ==> NoPercent(s)
    ensures r.Some? ==> r.value < |s| && s[r.value] == '%' && NoPercent(s[..r.value])
  {
    if s == [] then None
    else if s[0] == '%' then Some(0)
    else
      match FindPercent(s[1..])
      case None => None
      case Some(i) =>
        assert s[..i + 1] == [s[0]] + s[1..][..i];
        Some(i + 1)
  }

  /** What the loop finds next: no `%` at all, a `%` that begins no directive, or text, a directive and the rest. */
  datatype Step = End | Malformed | At(pre: string, d: Directive, rest: string)

  lemma SplitAtPercent(fmt: string, i: nat, body: string, rest: string)
    requires i < |fmt| && fmt[i] == '%' && fmt[i + 1..] == body + rest
    ensures fmt == fmt[..i] + (['%'] + body) + rest
  {
    assert fmt == fmt[..i] + [fmt[i]] + fmt[i + 1..];
  }

  /** One step of the directive loop, anchored at the first `%`. */
  function NextStep(fmt: string): (r: Step)
    ensures r.End? <==> NoPercent(fmt)
    ensures r.At? ==> NoPercent(r.pre) && ValidDirective(r.d) && fmt == r.pre + Render(r.d) + r.rest
  {
    var at := FindPercent(fmt);
    if at.None? then End
    else
      var sc := ScanDirective(fmt[at.value + 1..]);
      if sc.None? then Malformed
      else
        SplitAtPercent(fmt, at.value, RenderBody(sc.value.0), sc.value.1);
        At(fmt[..at.value], sc.value.0, sc.value.1)
  }

  /** Every `%` of `fmt` begins a well-formed directive. */
  predicate WellFormed(fmt: string)
    decreases |fmt|
  {
    var st := NextStep(fmt);
    st.End? || (st.At? && WellFormed(st.rest))
  }

  const TooFewArgsMessage := "too few args to sprintf"
  const PrecisionMessage := "non-zero precision not supported"

  /** The error for `%s` of `undefined` or `null`; the format string itself is argument 1. */
  function NullStringMessage(argn: nat): string {
    "argument " + NatToString(argn) + ": attempted to print undefined or null as a string"
  }

  predicate HasUnsupportedFlag(flags: string) {
    '\'' in flags || ' ' in flags || '#' in flags
  }

  function PadChar(d: Directive): char {
    if '0' in d.flags then '0' else ' '
  }

  predicate LeftAligned(d: Directive) {
    '-' in d.flags
  }

  predicate ShowsPlus(d: Directive) {
    '+' in d.flags
  }

  function WidthOf(d: Directive): nat {
    if d.width == [] then 0 else DigitsValue(d.width)
  }

  /** The directive passes the flag and precision checks. */
  predicate Plain(d: Directive) {
    !HasUnsupportedFlag(d.flags) && d.precision == []
  }

  /** `Math.floor(arg)` for the arguments the model covers. */
  datatype Floored = Integer(n: int) | NaN

  /**
   * The coercion per kind of argument. The clauses let the proofs about
   * `Convert` use it without unfolding the match.
   */
  function FloorArg(arg: JsValue): (r: Option<Floored>)
    ensures arg.Num? ==> r == Some(Integer(arg.n))
    ensures arg.Null? ==> r == Some(Integer(0))
    ensures arg.Undefined? ==> r == Some(NaN)
    ensures arg.Bool? ==> r == Some(Integer(if arg.b then 1 else 0))
    ensures r.None? <==> arg.Str? || arg.Arr? || arg.Obj?
  {
    match arg
    case Num(n) => Some(Integer(n))
    case Null => Some(Integer(0))
    case Undefined => Some(NaN)
    case Bool(b) => Some(Integer(if b then 1 else 0))
    case _ => None
  }

  /** `%s`: the argument padded when it is a string; a number or boolean prints bare. */
  function ConvertString(d: Directive, arg: JsValue, argn: nat): Outcome<string>
  {
    match arg
    case Undefined => Thrown(NullStringMessage(argn))
    case Null => Thrown(NullStringMessage(argn))
    case Str(x) => Done(DoPad(PadChar(d), WidthOf(d), LeftAligned(d), x))
    case Bool(b) => Done(if b then "true" else "false")
    case Num(n) => if PrintsPlain(n) then Done(IntToString(n)) else Unmodelled("a number beyond 2^53 in magnitude")
    case _ => Unmodelled("%s of an array or object")
  }

  /** `%d`: the floored argument, padded, with a `+` outside the field under the `+` flag. */
  function ConvertInteger(d: Directive, arg: JsValue): Outcome<string>
  {
    match FloorArg(arg)
    case None => Unmodelled("%d of a string, array or object")
    case Some(NaN) => Done(DoPad(PadChar(d), WidthOf(d), LeftAligned(d), "NaN"))
    case Some(Integer(n)) =>
      if !PrintsPlain(n) then Unmodelled("a number beyond 2^53 in magnitude")
      else Done((if ShowsPlus(d) && n > 0 then "+" else "") + DoPad(PadChar(d), WidthOf(d), LeftAligned(d), IntToString(n)))
  }

  /** The conversions the `switch` of `jsSprintf` handles. */
  predicate Handled(c: char) {
    c == 's' || c == 'd' || c == 'f' || c == 'j' || c == 'r'
  }

  /**
   * One directive other than `%%` applied to its argument, which is argument
   * number `argn` of the call: the flag check, then the precision check,
   * then the conversion.
   */
  function Convert(d: Directive, arg: JsValue, argn: nat): (r: Outcome<string>)
    ensures HasUnsupportedFlag(d.flags) ==> r == Thrown("unsupported flags: " + d.flags)
    ensures !HasUnsupportedFlag(d.flags) && d.precision != [] ==> r == Thrown(PrecisionMessage)
    ensures Plain(d) && !Handled(d.conv) ==> r == Thrown("unsupported conversion: " + [d.conv])
    ensures r.Done? ==> Plain(d) && (d.conv == 's' || d.conv == 'd')
    ensures Plain(d) && d.conv == 's' && (arg.Undefined? || arg.Null?) ==> r == Thrown(NullStringMessage(argn))
  {
    if HasUnsupportedFlag(d.flags) then Thrown("unsupported flags: " + d.flags)
    else if d.precision != [] then Thrown(PrecisionMessage)
    else if d.conv == 's' then ConvertString(d, arg, argn)
    else if d.conv == 'd' then ConvertInteger(d, arg)
    else if d.conv == 'f' then Unmodelled("%f")
    else if d.conv == 'j' then Unmodelled("%j")
    else if d.conv == 'r' then Unmodelled("%r")
    else Thrown("unsupported conversion: " + [d.conv])
  }

  /** `%s` of a string emits it padded to the width: with `0` under the `0` flag, on the right under `-`. */
  lemma StringDirectivePads(d: Directive, x: string, argn: nat)
    requires Plain(d) && d.conv == 's'
    ensures Convert(d, Str(x), argn).Done?
    ensures PaddedTo(Convert(d, Str(x), argn).value, x, PadChar(d), WidthOf(d), LeftAligned(d))
  {
    DoPadShape(PadChar(d), WidthOf(d), LeftAligned(d), x);
  }

  /**
   * `%d` of an integer: under the `+` flag a positive value gets a `+` in
   * front of the padded field, which the width does not count.
   */
  lemma IntegerDirectiveSign(d: Directive, n: int, argn: nat)
    requires Plain(d) && d.conv == 'd' && PrintsPlain(n)
    ensures var r := Convert(d, Num(n), argn);
            var sign := if ShowsPlus(d) && n > 0 then 1 else 0;
            && r.Done? && |r.value| >= sign
            && r.value[..sign] == (if sign == 1 then "+" else "")
            && PaddedTo(r.value[sign..], IntToString(n), PadChar(d), WidthOf(d), LeftAligned(d))
  {
    var padded := DoPad(PadChar(d), WidthOf(d), LeftAligned(d), IntToString(n));
    DoPadShape(PadChar(d), WidthOf(d), LeftAligned(d), IntToString(n));
    var r := Convert(d, Num(n), argn);
    if ShowsPlus(d) && n > 0 {
      assert r.value == "+" + padded;
      assert r.value[1..] == padded;
    } else {
      assert r.value == padded;
    }
  }

  /**
   * `%d` passes its argument through `Math.floor`, so `null` prints as 0,
   * `false` and `true` as 0 and 1, and `undefined` as `NaN` in the padded field.
   */
  lemma IntegerDirectiveCoerces(d: Directive, argn: nat)
    requires d.conv == 'd'
    ensures Convert(d, Null, argn) == Convert(d, Num(0), argn)
    ensures Convert(d, Bool(false), argn) == Convert(d, Num(0), argn)
    ensures Convert(d, Bool(true), argn) == Convert(d, Num(1), argn)
    ensures Plain(d) ==> Convert(d, Undefined, argn) == Done(DoPad(PadChar(d), WidthOf(d), LeftAligned(d), "NaN"))
  {
    if Plain(d) {
      assert FloorArg(Null) == FloorArg(Num(0)) == FloorArg(Bool(false));
      assert FloorArg(Bool(true)) == FloorArg(Num(1));
      assert Convert(d, Null, argn) == ConvertInteger(d, Null);
      assert Convert(d, Bool(false), argn) == ConvertInteger(d, Bool(false));
      assert Convert(d, Bool(true), argn) == ConvertInteger(d, Bool(true));
      assert Convert(d, Num(0), argn) == ConvertInteger(d, Num(0));
      assert Convert(d, Num(1), argn) == ConvertInteger(d, Num(1));
      assert Convert(d, Undefined, argn) == ConvertInteger(d, Undefined);
    }
  }

  function Prepend(p: string, o: Outcome<string>): Outcome<string> {
    match o
    case Done(t) => Done(p + t)
    case _ => o
  }

  function Append(o: Outcome<string>, tail: string): Outcome<string> {
    match o
    case Done(t) => Done(t + tail)
    case _ => o
  }

  /** What a `%` that begins no directive leads to; the model does not follow the unanchored search. */
  const MalformedWhat := "a % that begins no directive"

  /**
   * The directive loop of `jsSprintf`, with `args` the arguments not yet
   * consumed and `argn` the number of the last one consumed.
   */
  function Format(fmt: string, args: seq<JsValue>, argn: nat): (r: Outcome<string>)
    ensures NoPercent(fmt) ==> r == Done(fmt)
    decreases |fmt|
  {
    var st := NextStep(fmt);
    if st.End? then Done(fmt)
    else if st.Malformed? then Unmodelled(MalformedWhat)
    else if st.d.conv == '%' then Prepend(st.pre + "%", Format(st.rest, args, argn))
    else if args == [] then Thrown(TooFewArgsMessage)
    else
      match Convert(st.d, args[0], argn + 1)
      case Done(text) => Prepend(st.pre + text, Format(st.rest, args[1..], argn + 1))
      case Thrown(m) => Thrown(m)
      case Unmodelled(w) => Unmodelled(w)
  }

  /** `jsSprintf(fmt, args...)`. */
  function JsSprintf(fmt: string, args: seq<JsValue>): Outcome<string> {
    Format(fmt, args, 1)
  }

  /** The first `%` after a `%`-free prefix is found right after it. */
  lemma {:induction false} FindPercentAfter(pre: string, t: string)
    requires NoPercent(pre) && t != [] && t[0] == '%'
    ensures FindPercent(pre + t) == Some(|pre|)
  {
    if pre == [] {
      assert pre + t == t;
    } else {
      assert (pre + t)[0] == pre[0];
      assert (pre + t)[1..] == pre[1..] + t;
      FindPercentAfter(pre[1..], t);
    }
  }

  /** How the loop sees `pre`, then directive `d`, then `rest`. */
  lemma DirectiveAt(pre: string, d: Directive, rest: string)
    requires NoPercent(pre) && ValidDirective(d)
    ensures NextStep(pre + Render(d) + rest) == At(pre, d, rest)
  {
    var f := pre + Render(d) + rest;
    RenderedSlices(pre, d, rest);
    FindPercentAfter(pre, ['%'] + (RenderBody(d) + rest));
    assert FindPercent(f) == Some(|pre|);
    ScanRendered(d, rest);
    assert ScanDirective(f[|pre| + 1..]) == Some((d, rest));
  }

  /** Where the parts of `pre + Render(d) + rest` sit. */
  lemma RenderedSlices(pre: string, d: Directive, rest: string)
    ensures var f := pre + Render(d) + rest;
      && f == pre + (['%'] + (RenderBody(d) + rest))
      && f[..|pre|] == pre
      && f[|pre| + 1..] == RenderBody(d) + rest
  {
    var f := pre + Render(d) + rest;
    assert f == pre + (['%'] + (RenderBody(d) + rest));
  }

  /** A directive in front of a format keeps it well-formed exactly when the rest is. */
  lemma DirectiveKeepsWellFormed(pre: string, d: Directive, rest: string)
    requires NoPercent(pre) && ValidDirective(d)
    ensures WellFormed(pre + Render(d) + rest) <==> WellFormed(rest)
  {
    DirectiveAt(pre, d, rest);
  }

  /** `%%`, whatever its flags and width, emits one `%` and consumes no argument. */
  lemma PercentEscape(pre: string, d: Directive, rest: string, args: seq<JsValue>, argn: nat)
    requires NoPercent(pre) && ValidDirective(d) && d.conv == '%'
    ensures Format(pre + Render(d) + rest, args, argn) == Prepend(pre + "%", Format(rest, args, argn))
  {
    DirectiveAt(pre, d, rest);
  }

  /**
   * Any other directive with no argument left throws "too few args to
   * sprintf", before its flags, precision or conversion are looked at.
   */
  lemma TooFewArgs(pre: string, d: Directive, rest: string, argn: nat)
    requires NoPercent(pre) && ValidDirective(d) && d.conv != '%'
    ensures Format(pre + Render(d) + rest, [], argn) == Thrown(TooFewArgsMessage)
  {
    DirectiveAt(pre, d, rest);
  }

  /**
   * Any other directive consumes exactly one argument, which is argument
   * `argn + 1`: its text follows `pre` and the rest of the format goes on
   * with the remaining arguments, or the call ends as the directive does.
   */
  lemma ConsumesOneArgument(pre: string, d: Directive, rest: string, args: seq<JsValue>, argn: nat)
    requires NoPercent(pre) && ValidDirective(d) && d.conv != '%' && args != []
    ensures var c := Convert(d, args[0], argn + 1);
            && (c.Done? ==> Format(pre + Render(d) + rest, args, argn) == Prepend(pre + c.value, Format(rest, args[1..], argn + 1)))
            && (!c.Done? ==> Format(pre + Render(d) + rest, args, argn) == c)
  {
    DirectiveAt(pre, d, rest);
  }

  lemma PrependAppend(p: string, o: Outcome<string>, tail: string)
    ensures Prepend(p, Append(o, tail)) == Append(Prepend(p, o), tail)
  {
    if o.Done? {
      assert p + (o.value + tail) == (p + o.value) + tail;
    }
  }

  /** Text appended to a format with a directive lands in the rest after that directive. */
  lemma StepWithTail(fmt: string, tail: string)
    requires NextStep(fmt).At?
    ensures NextStep(fmt + tail) == At(NextStep(fmt).pre, NextStep(fmt).d, NextStep(fmt).rest + tail)
  {
    var st := NextStep(fmt);
    RegroupTail(st.pre, Render(st.d), st.rest, tail);
    DirectiveAt(st.pre, st.d, st.rest + tail);
  }

  lemma RegroupTail(a: string, b: string, c: string, tail: string)
    ensures a + b + c + tail == a + b + (c + tail)
  {
  }

  /** A well-formed format stays well-formed past its first directive. */
  lemma WellFormedRest(fmt: string)
    requires WellFormed(fmt) && NextStep(fmt).At?
    ensures WellFormed(NextStep(fmt).rest)
  {
  }

  /** `TrailingText` at a `%%` escape. */
  lemma TrailingPercent(fmt: string, tail: string, pre: string, d: Directive, rest: string, args: seq<JsValue>, argn: nat)
    requires NextStep(fmt) == At(pre, d, rest) && NextStep(fmt + tail) == At(pre, d, rest + tail) && d.conv == '%'
    requires Format(rest + tail, args, argn) == Append(Format(rest, args, argn), tail)
    ensures Format(fmt + tail, args, argn) == Append(Format(fmt, args, argn), tail)
  {
    PrependAppend(pre + "%", Format(rest, args, argn), tail);
  }

  /** `TrailingText` at a directive whose argument converts to `text`. */
  lemma TrailingConverted(fmt: string, tail: string, pre: string, d: Directive, rest: string, args: seq<JsValue>, argn: nat, text: string)
    requires NextStep(fmt) == At(pre, d, rest) && NextStep(fmt + tail) == At(pre, d, rest + tail) && d.conv != '%'
    requires args != [] && Convert(d, args[0], argn + 1) == Done(text)
    requires Format(rest + tail, args[1..], argn + 1) == Append(Format(rest, args[1..], argn + 1), tail)
    ensures Format(fmt + tail, args, argn) == Append(Format(fmt, args, argn), tail)
  {
    PrependAppend(pre + text, Format(rest, args[1..], argn + 1), tail);
  }

  /** `TrailingText` at a directive that ends the call: no argument left, or a conversion that does not finish. */
  lemma TrailingStops(fmt: string, tail: string, pre: string, d: Directive, rest: string, args: seq<JsValue>, argn: nat)
    requires NextStep(fmt) == At(pre, d, rest) && NextStep(fmt + tail) == At(pre, d, rest + tail) && d.conv != '%'
    requires args != [] ==> !Convert(d, args[0], argn + 1).Done?
    ensures Format(fmt + tail, args, argn) == Append(Format(fmt, args, argn), tail)
  {
    if args == [] {
      assert Format(fmt, args, argn) == Thrown(TooFewArgsMessage);
    } else {
      var o := Convert(d, args[0], argn + 1);
      assert Format(fmt, args, argn) == o;
      assert Format(fmt + tail, args, argn) == o;
    }
  }

  /** Text after the last directive of a well-formed format is appended verbatim. */
  lemma {:induction false} TrailingText(fmt: string, tail: string, args: seq<JsValue>, argn: nat)
    requires WellFormed(fmt) && NoPercent(tail)
    ensures Format(fmt + tail, args, argn) == Append(Format(fmt, args, argn), tail)
    decreases |fmt|, |args|
  {
    var st := NextStep(fmt);
    if st.End? {
      assert NoPercent(fmt + tail);
    } else {
      WellFormedRest(fmt);
      StepWithTail(fmt, tail);
      if st.d.conv == '%' {
        TrailingText(st.rest, tail, args, argn);
        TrailingPercent(fmt, tail, st.pre, st.d, st.rest, args, argn);
      } else {
        if args != [] && Convert(st.d, args[0], argn + 1).Done? {
          TrailingText(st.rest, tail, args[1..], argn + 1);
          TrailingConverted(fmt, tail, st.pre, st.d, st.rest, args, argn, Convert(st.d, args[0], argn + 1).value);
        } else {
          TrailingStops(fmt, tail, st.pre, st.d, st.rest, args, argn);
        }
      }
    }
  }

  /** `String(-3)` padded with zeros to five units. */
  lemma ZeroPaddedMinusThree()
    ensures DoPad('0', 5, false, IntToString(-3)) == "000-3"
  {
    assert NatToString(3) == "3";
    assert IntToString(-3) == "-3";
    assert Utf16Length("-3") == 2 by { assert "-3"[1..] == "3" && "3"[1..] == ""; }
    assert Reps('0', 5, "-3") == 3;
    assert Repeat('0', 3) == "000";
  }

  /** `%d` of -3 in a plain zero-padded, right-aligned field of five units. */
  lemma ZeroPaddedField(d: Directive, argn: nat)
    requires Plain(d) && d.conv == 'd'
    requires PadChar(d) == '0' && !LeftAligned(d) && !ShowsPlus(d) && WidthOf(d) == 5
    ensures Convert(d, Num(-3), argn) == Done("000-3")
  {
    ZeroPaddedMinusThree();
    assert FloorArg(Num(-3)) == Some(Integer(-3)) && PrintsPlain(-3);
    assert ConvertInteger(d, Num(-3)) == Done("" + "000-3");
    assert "" + "000-3" == "000-3";
  }

  /** Zero padding goes in front of the minus sign: `%05d` of -3 is `000-3`. */
  lemma ZeroPadPrecedesSign(d: Directive, argn: nat)
    requires d == Directive("0", "5", "", "", 'd')
    ensures Render(d) == "%05d"
    ensures Convert(d, Num(-3), argn) == Done("000-3")
  {
    assert DigitsValue("5") == 5 by { assert "5"[..0] == ""; }
    assert !HasUnsupportedFlag(d.flags);
    ZeroPaddedField(d, argn);
    assert Render(d) == "%05d" by {
      assert PrecisionText("") == "";
      assert RenderBody(d) == "0" + "5" + "" + "" + "d" == "05d";
    }
  }

  /** `String(5)` padded with spaces to three units. */
  lemma SpacePaddedFive()
    ensures DoPad(' ', 3, false, IntToString(5)) == "  5"
  {
    assert NatToString(5) == "5";
    assert IntToString(5) == "5";
    assert Utf16Length("5") == 1 by { assert "5"[1..] == ""; }
    assert Reps(' ', 3, "5") == 2;
    assert Repeat(' ', 2) == "  ";
  }

  /** `%d` of 5 in a plain space-padded, right-aligned field of three units under the `+` flag. */
  lemma PlusField(d: Directive, argn: nat)
    requires Plain(d) && d.conv == 'd'
    requires PadChar(d) == ' ' && !LeftAligned(d) && ShowsPlus(d) && WidthOf(d) == 3
    ensures Convert(d, Num(5), argn) == Done("+  5")
  {
    SpacePaddedFive();
    assert FloorArg(Num(5)) == Some(Integer(5)) && PrintsPlain(5);
    assert ConvertInteger(d, Num(5)) == Done("+" + "  5");
    assert "+" + "  5" == "+  5";
  }

  /** The `+` sign sits outside the field: `%+3d` of 5 is `+  5`. */
  lemma PlusOutsideWidth(d: Directive, argn: nat)
    requires d == Directive("+", "3", "", "", 'd')
    ensures Render(d) == "%+3d"
    ensures Convert(d, Num(5), argn) == Done("+  5")
  {
    assert DigitsValue("3") == 3 by { assert "3"[..0] == ""; }
    assert !HasUnsupportedFlag(d.flags);
    PlusField(d, argn);
    assert Render(d) == "%+3d" by {
      assert PrecisionText("") == "";
      assert RenderBody(d) == "+" + "3" + "" + "" + "d" == "+3d";
    }
  }

  // ---------------------------------------------------------------------
  // jsError

  /** The `cause` argument: falsy, an `Error` with its message, or some other truthy value. */
  datatype Cause = NoCause | ErrorCause(message: string) | NotAnError

  /** A constructed `jsError`: its short message, summary, `message` property and cause's message. */
  datatype JsError = JsError(shortMessage: string, summary: string, message: string, cause: Option<string>)

  /** The assertion that a truthy cause is an `Error`, as a thrown message. */
  const CauseNotErrorMessage := "cause must be an Error"

  /**
   * `new jsError(cause, fmt?, args...)`: the short message is the formatted
   * text (empty without a format), followed by `": "` and the cause's
   * message when there is a cause.
   */
  function NewJsError(cause: Cause, format: Option<(string, seq<JsValue>)>): (r: Outcome<JsError>)
    ensures r.Done? ==> r.value.message == r.value.summary && ToString(r.value) == r.value.message
    ensures r.Done? && format.None? ==> r.value.shortMessage == ""
    ensures r.Done? && format.Some? ==> JsSprintf(format.value.0, format.value.1) == Done(r.value.shortMessage)
    ensures r.Done? <==> !cause.NotAnError? && (format.Some? ==> JsSprintf(format.value.0, format.value.1).Done?)
    ensures r.Done? && cause.NoCause? ==> r.value.summary == r.value.shortMessage && r.value.cause.None?
    ensures r.Done? && cause.ErrorCause? ==>
              r.value.summary == r.value.shortMessage + ": " + cause.message && r.value.cause == Some(cause.message)
    ensures format.Some? && JsSprintf(format.value.0, format.value.1).Thrown? ==>
              r == Thrown(JsSprintf(format.value.0, format.value.1).message)
    ensures cause.NotAnError? && (format.Some? ==> JsSprintf(format.value.0, format.value.1).Done?) ==>
              r == Thrown(CauseNotErrorMessage)
  {
    var tail := if format.None? then Done("") else JsSprintf(format.value.0, format.value.1);
    match tail
    case Thrown(m) => Thrown(m)
    case Unmodelled(w) => Unmodelled(w)
    case Done(t) =>
      match cause
      case NoCause => Done(JsError(t, t, t, None))
      case ErrorCause(m) => Done(JsError(t, t + ": " + m, t + ": " + m, Some(m)))
      case NotAnError => Thrown(CauseNotErrorMessage)
  }

  /** `jsError.prototype.toString`. */
  function ToString(e: JsError): string {
    e.summary
  }
}

=== FILE: throttle.dfy ===
/**
 * The minimum-interval gate (`Throttler`) used for poll pacing. Its
 * implementation lives outside this model; it is modelled from its contract:
 * a check is "too recent" when less than `interval` has elapsed since the last
 * check that was not, and a check that is not too recent records its time.
 * The clock is an explicit parameter.
 */
module Throttles {
  import opened Wrappers

  datatype Throttle = Throttle(interval: int, last: Option<int>)

  /** A gate that has never fired. */
  function NewThrottle(interval: int): (t: Throttle)
    ensures t.interval == interval && t.last.None?
  {
    Throttle(interval, None)
  }

  /** `tooRecent()` at time `now`: the verdict and the gate afterwards. */
  function TooRecent(t: Throttle, now: int): (r: (bool, Throttle))
    ensures r.1.interval == t.interval
    ensures r.0 ==> r.1 == t
    ensures !r.0 ==> r.1.last == Some(now)
    ensures t.last.None? ==> !r.0
  {
    if t.last.Some? && now - t.last.value < t.interval then (true, t)
    else (false, t.(last := Some(now)))
  }

  /**
   * Once the gate lets a check through at `now`, every later check within
   * `interval` is refused and the first one at or after `now + interval` is
   * let through.
   */
  lemma GateSpacing(t: Throttle, now: int, later: int)
    requires !TooRecent(t, now).0
    requires now <= later
    ensures TooRecent(TooRecent(t, now).1, later).0 <==> later < now + t.interval
  {
  }

  /** A refused check changes nothing, so repeating it gives the same verdict. */
  lemma RefusalIsIdempotent(t: Throttle, now: int)
    requires TooRecent(t, now).0
    ensures TooRecent(TooRecent(t, now).1, now) == TooRecent(t, now)
  {
  }
}

=== FILE: transaction.dfy ===
/**
 * One batch of predicated record writes (`MorayBusTransaction`) and the
 * validation its constructor performs on the caller's `records` argument.
 */
module Transactions {
  import opened Wrappers
  import opened JsValues

  /** A caller-supplied callback, identified opaquely. */
  type CallbackId = nat

  /** A failed assertion: a programming-contract violation, fatal to the caller. */
  datatype Fatal = Fatal(message: string)

  /** An error reported by the store client; `bucket`/`key` name a conflicting record. */
  datatype StoreError = StoreError(name: string, message: string, bucket: Option<string>, key: Option<string>)

  /** What a transaction's callback receives as its error. */
  datatype BusError =
    | StoreFailure(err: StoreError)
    | Wrapped(message: string, cause: StoreError)   // a VError annotating `cause`

  /** What the caller's merge function returns: a value, or an `Error` instance. */
  datatype MergeResult = Merged(value: JsValue) | MergeFailed(message: string)

  /** `retryConflict(old, fetched)`. */
  type MergeFn = (JsValue, JsValue) -> MergeResult

  /** One write of the batch, with its identity `bucket/key`. */
  datatype Record = Record(bucket: string, key: string, value: JsValue, options: JsValue, ident: string)

  /**
   * Where a live transaction is in its life cycle:
   * in the write queue; in flight since `issuedAt`; between a completion and
   * its routing (`Idle`); waiting for a re-fetch after a conflict on record
   * `index`; or waiting `delay` ms for its retry timer.
   */
  datatype Phase =
    | Queued
    | InFlight(issuedAt: string)
    | Idle
    | Fetching(index: nat, conflict: StoreError)
    | Waiting(delay: int)

  datatype Txn = Txn(
    records: seq<Record>,
    callback: Option<CallbackId>,
    merge: Option<MergeFn>,
    nfails: nat,
    phase: Phase)

  function Ident(bucket: string, key: string): string {
    bucket + "/" + key
  }

  /** The identities of a transaction's records, in order. */
  function Idents(records: seq<Record>): (ids: seq<string>)
    ensures |ids| == |records|
    ensures forall i :: 0 <= i < |records| ==> ids[i] == records[i].ident
  {
    if records == [] then [] else [records[0].ident] + Idents(records[1..])
  }

  /** A record argument the constructor accepts: `[bucket, key, value, options?]`. */
  predicate ValidRecordArg(v: JsValue) {
    && v.Arr?
    && (|v.elems| == 3 || |v.elems| == 4)
    && v.elems[0].Str?
    && v.elems[1].Str?
  }

  /** `rec[3] || {}`. */
  function OptionsArg(elems: seq<JsValue>): JsValue {
    if |elems| == 4 && !Falsy(elems[3]) then elems[3] else EmptyObject
  }

  /** A record as the constructor builds it, with its options defaulted to `{}`. */
  predicate BuiltFrom(r: Record, v: JsValue)
    requires ValidRecordArg(v)
  {
    && r.bucket == v.elems[0].s
    && r.key == v.elems[1].s
    && r.value == v.elems[2]
    && r.options == OptionsArg(v.elems)
    && r.ident == Ident(r.bucket, r.key)
  }

  function ParseRecord(v: JsValue): (r: Result<Record, Fatal>)
    ensures r.Ok? <==> ValidRecordArg(v)
    ensures r.Ok? ==> BuiltFrom(r.value, v)
  {
    if !v.Arr? then Err(Fatal("each record for writing must be an array"))
    else if !(|v.elems| == 3 || |v.elems| == 4) then Err(Fatal("record must have 3 or 4 elements"))
    else if !v.elems[0].Str? then Err(Fatal("bucket name must be a string"))
    else if !v.elems[1].Str? then Err(Fatal("record key must be a string"))
    else
      var bucket := v.elems[0].s;
      var key := v.elems[1].s;
      Ok(Record(bucket, key, v.elems[2], OptionsArg(v.elems), Ident(bucket, key)))
  }

  /** Builds the records in order, stopping at the first invalid one. */
  function ParseRecords(elems: seq<JsValue>): (r: Result<seq<Record>, Fatal>)
    ensures r.Ok? <==> forall i :: 0 <= i < |elems| ==> ValidRecordArg(elems[i])
    ensures r.Ok? ==> |r.value| == |elems|
    ensures r.Ok? ==> forall i :: 0 <= i < |elems| ==> BuiltFrom(r.value[i], elems[i])
  {
    if elems == [] then Ok([])
    else
      var first :- ParseRecord(elems[0]);
      var rest :- ParseRecords(elems[1..]);
      assert forall i :: 1 <= i < |elems| ==> elems[i] == elems[1..][i - 1];
      Ok([first] + rest)
  }

  /** A `records` argument the constructor accepts. */
  predicate ValidBatch(records: JsValue) {
    && records.Arr?
    && |records.elems| > 0
    && forall i :: 0 <= i < |records.elems| ==> ValidRecordArg(records.elems[i])
  }

  /**
   * `new MorayBusTransaction(records, options, callback)`: refuses a
   * non-array or empty batch and any malformed record; otherwise one record
   * per element, identity `bucket/key`, no failures yet, ready to queue.
   */
  function MakeTxn(records: JsValue, merge: Option<MergeFn>, callback: Option<CallbackId>): (r: Result<Txn, Fatal>)
    ensures r.Ok? <==> ValidBatch(records)
    ensures r.Ok? ==> && |r.value.records| == |records.elems|
                      && (forall i :: 0 <= i < |records.elems| ==> BuiltFrom(r.value.records[i], records.elems[i]))
                      && r.value.nfails == 0 && r.value.phase == Queued
                      && r.value.callback == callback && r.value.merge == merge
  {
    if !records.Arr? then Err(Fatal("\"records\" must be an array"))
    else if |records.elems| == 0 then Err(Fatal("at least one record is required"))
    else
      var recs :- ParseRecords(records.elems);
      Ok(Txn(recs, callback, merge, 0, Queued))
  }

  /** A record with identity `b/k` and defaulted options comes out of a three-element array. */
  lemma ThreeElementRecord(b: string, k: string, value: JsValue)
    ensures ParseRecord(Arr([Str(b), Str(k), value])).Ok?
    ensures ParseRecord(Arr([Str(b), Str(k), value])).value
            == Record(b, k, value, EmptyObject, b + "/" + k)
  {
  }
}

=== FILE: wrappers.dfy ===
/** Failure-compatible wrappers shared by every module of the model. */
module Wrappers {

  /** A value that may be absent (JavaScript's `undefined` in a slot). */
  datatype Option<+T> = None | Some(value: T) {

    predicate IsFailure() {
      None?
    }

    function PropagateFailure<U>(): Option<U>
      requires None?
    {
      None
    }

    function Extract(): T
      requires Some?
    {
      value
    }
  }

  /** Either a value or the reason the operation was refused. */
  datatype Result<+R, +E> = Ok(value: R) | Err(error: E) {

    predicate IsFailure() {
      Err?
    }

    function PropagateFailure<U>(): Result<U, E>
      requires Err?
    {
      Err(error)
    }

    function Extract(): R
      requires Ok?
    {
      value
    }
  }
}

=== FILE: writes.dfy ===
/**
 * The write pipeline of `MorayBus`: `putBatch`, `flush`, `txnPut` and its
 * completion, error routing (`txnHandleError`), retry with backoff
 * (`txnRetry`), conflict re-fetch and merge, and finalization (`txnFini`).
 * Each event is a pure function from the bus state to the next state and the
 * effects it asks for; a companion lemma shows that it keeps `Inv`.
 */
module Writes {
  import opened Wrappers
  import opened JsValues
  import opened Backoff
  import opened Transactions
  import opened BusState

  /** The store error names that are retried rather than surfaced. */
  const TransientNames: set<string> := {
    "ConnectionClosedError", "ConnectionTimeoutError", "DNSError", "NoConnectionError",
    "UnsolicitedMessageError", "ConnectTimeoutError", "NoDatabasePeersError", "QueryTimeoutError"
  }

  const ConflictName: string := "EtagConflictError"

  const FetchFailedMessage: string := "failed to fetch object after retryable EtagConflict error"
  const MergeFailedMessage: string := "merge failed after retryable EtagConflict error"

  /** How a `batchPut` completed. */
  datatype PutOutcome = PutOk(meta: JsValue) | PutFailed(err: StoreError)

  /** How the re-fetch after a conflict completed. */
  datatype FetchOutcome = FetchFailed(err: StoreError) | Fetched(record: JsValue)

  /** A present, non-empty error field (JavaScript truthiness of a string). */
  predicate Given(f: Option<string>) {
    f.Some? && f.value != ""
  }

  ghost predicate DistinctIdents(records: seq<Record>) {
    forall i, j :: 0 <= i < j < |records| ==> records[i].ident != records[j].ident
  }

  // ---------------------------------------------------------------------------
  // putBatch

  /**
   * Registers each identity in turn for transaction `id`, failing on the first
   * one already held, whether by another transaction or earlier in the same
   * batch.
   */
  function Register(byRecord: map<string, nat>, records: seq<Record>, id: nat): (r: Result<map<string, nat>, Fatal>)
    ensures r.Ok? <==> (forall i :: 0 <= i < |records| ==> records[i].ident !in byRecord) && DistinctIdents(records)
    decreases |records|
  {
    if records == [] then Ok(byRecord)
    else if records[0].ident in byRecord then
      Err(Fatal("attempted concurrent writes on the same record"))
    else
      var rest := records[1..];
      assert forall i :: 1 <= i < |records| ==> records[i] == rest[i - 1];
      Register(byRecord[records[0].ident := id], rest, id)
  }

  /** A successful registration adds exactly the batch's identities, each bound to `id`, and keeps the rest. */
  lemma {:induction false} RegisterBinds(byRecord: map<string, nat>, records: seq<Record>, id: nat)
    requires Register(byRecord, records, id).Ok?
    ensures var m := Register(byRecord, records, id).value;
      && m.Keys == byRecord.Keys + IdentSet(records)
      && (forall k :: k in byRecord ==> m[k] == byRecord[k])
      && (forall k :: k in IdentSet(records) ==> m[k] == id)
    decreases |records|
  {
    if records != [] {
      var rest := records[1..];
      assert IdentSet(records) == {records[0].ident} + IdentSet(rest) by {
        assert records == [records[0]] + rest;
      }
      RegisterBinds(byRecord[records[0].ident := id], rest, id);
    }
  }

  /** The identity of element `i` of an accepted batch. */
  function BatchIdent(records: JsValue, i: nat): string
    requires ValidBatch(records) && i < |records.elems|
  {
    Ident(records.elems[i].elems[0].s, records.elems[i].elems[1].s)
  }

  /** The batch is accepted and none of its identities is held, nor repeated. */
  ghost predicate Admissible(s: Bus, records: JsValue) {
    && ValidBatch(records)
    && (forall i :: 0 <= i < |records.elems| ==> BatchIdent(records, i) !in s.byRecord)
    && (forall i, j :: 0 <= i < j < |records.elems| ==> BatchIdent(records, i) != BatchIdent(records, j))
  }

  /** Every queued id names a live transaction. */
  ghost predicate QueueLive(s: Bus) {
    forall j :: 0 <= j < |s.putq| ==> s.putq[j] in s.txns
  }

  /** Adds a validated, registered transaction under a fresh id at the end of the queue. */
  function Enqueue(s: Bus, t: Txn, byRecord: map<string, nat>): (s': Bus)
    ensures ReadSideSame(s, s') && s'.pending == s.pending && s'.maxPuts == s.maxPuts
    ensures s'.txns == s.txns[s.nextTxn := t] && s'.byRecord == byRecord
    ensures s'.putq == s.putq + [s.nextTxn] && s'.nextTxn == s.nextTxn + 1
  {
    s.(txns := s.txns[s.nextTxn := t], byRecord := byRecord, putq := s.putq + [s.nextTxn], nextTxn := s.nextTxn + 1)
  }

  /** The identity map stays exact when the new transaction's identities are bound to its fresh id. */
  lemma EnqueueKeepsIdents(s: Bus, t: Txn, byRecord: map<string, nat>)
    requires IdentsOwned(s) && IdentsLive(s) && s.nextTxn !in s.txns
    requires byRecord.Keys == s.byRecord.Keys + IdentSet(t.records)
    requires forall k :: k in s.byRecord ==> byRecord[k] == s.byRecord[k]
    requires forall k :: k in IdentSet(t.records) ==> byRecord[k] == s.nextTxn
    ensures IdentsOwned(Enqueue(s, t, byRecord)) && IdentsLive(Enqueue(s, t, byRecord))
  {
    var id := s.nextTxn;
    var s' := Enqueue(s, t, byRecord);
    assert IdentsOwned(s') by {
      assert forall i :: 0 <= i < |t.records| ==> t.records[i].ident in IdentSet(t.records);
    }
    assert IdentsLive(s') by {
      forall ident | ident in s'.byRecord
        ensures s'.byRecord[ident] in s'.txns && ident in IdentSet(s'.txns[s'.byRecord[ident]].records)
      {
        if ident in s.byRecord {
          assert s.byRecord[ident] != id;
        }
      }
    }
  }

  lemma EnqueueKeepsInv(s: Bus, t: Txn, byRecord: map<string, nat>)
    requires Inv(s)
    requires t.phase == Queued && |t.records| > 0
    requires forall i :: 0 <= i < |t.records| ==> t.records[i].ident == Ident(t.records[i].bucket, t.records[i].key)
    requires byRecord.Keys == s.byRecord.Keys + IdentSet(t.records)
    requires forall k :: k in s.byRecord ==> byRecord[k] == s.byRecord[k]
    requires forall k :: k in IdentSet(t.records) ==> byRecord[k] == s.nextTxn
    ensures Inv(Enqueue(s, t, byRecord))
  {
    var id := s.nextTxn;
    var s' := Enqueue(s, t, byRecord);
    assert id !in s.txns;
    EnqueueKeepsIdents(s, t, byRecord);
    AppendKeepsQueue(s, id, t, s');
    assert InFlightIds(s'.txns) == InFlightIds(s.txns);
  }

  /**
   * `putBatch(records, {retryConflict: merge}, callback)` at time `clock`:
   * builds the transaction, registers each of its identities, appends its id
   * to the END of the queue, then flushes.
   */
  function PutBatch(s: Bus, records: JsValue, merge: Option<MergeFn>, callback: Option<CallbackId>, clock: string)
    : (r: Result<(Bus, seq<Effect>), Fatal>)
    requires QueueLive(s)
    ensures r.Ok? <==> Admissible(s, records)
    ensures r.Ok? ==> ReadSideSame(s, r.value.0)
  {
    var t :- MakeTxn(records, merge, callback);
    assert forall i :: 0 <= i < |records.elems| ==> t.records[i].ident == BatchIdent(records, i);
    var byRecord :- Register(s.byRecord, t.records, s.nextTxn);
    Ok(Flush(Enqueue(s, t, byRecord), clock))
  }

  /** The transaction and identity map a successful `putBatch` enqueues, before flushing. */
  lemma PutBatchSteps(s: Bus, records: JsValue, merge: Option<MergeFn>, callback: Option<CallbackId>, clock: string)
    returns (t: Txn, byRecord: map<string, nat>)
    requires QueueLive(s) && Admissible(s, records)
    ensures MakeTxn(records, merge, callback) == Ok(t)
    ensures t.merge == merge && t.callback == callback && t.nfails == 0 && |t.records| == |records.elems|
    ensures forall i :: 0 <= i < |records.elems| ==> BuiltFrom(t.records[i], records.elems[i])
    ensures Register(s.byRecord, t.records, s.nextTxn) == Ok(byRecord)
    ensures PutBatch(s, records, merge, callback, clock) == Ok(Flush(Enqueue(s, t, byRecord), clock))
    ensures forall i :: 0 <= i < |records.elems| ==> t.records[i].ident == BatchIdent(records, i)
    ensures byRecord.Keys == s.byRecord.Keys + IdentSet(t.records)
    ensures forall k :: k in s.byRecord ==> byRecord[k] == s.byRecord[k]
    ensures forall k :: k in IdentSet(t.records) ==> byRecord[k] == s.nextTxn
  {
    t := MakeTxn(records, merge, callback).value;
    assert forall i :: 0 <= i < |records.elems| ==> t.records[i].ident == BatchIdent(records, i);
    byRecord := Register(s.byRecord, t.records, s.nextTxn).value;
    RegisterBinds(s.byRecord, t.records, s.nextTxn);
  }

  lemma PutBatchKeepsInv(s: Bus, records: JsValue, merge: Option<MergeFn>, callback: Option<CallbackId>, clock: string)
    requires Inv(s) && Admissible(s, records)
    ensures Inv(PutBatch(s, records, merge, callback, clock).value.0)
  {
    var t, byRecord := PutBatchSteps(s, records, merge, callback, clock);
    EnqueueKeepsInv(s, t, byRecord);
    FlushKeepsInv(Enqueue(s, t, byRecord), clock);
  }

  /**
   * After a successful `putBatch` the new transaction is live under the fresh
   * id with one record per element, its callback and no failures; every
   * identity of the batch maps to it and the identities held before are
   * untouched. (`Inv` gives both preconditions on the state.)
   */
  lemma PutBatchRegisters(s: Bus, records: JsValue, merge: Option<MergeFn>, callback: Option<CallbackId>, clock: string)
    requires QueueLive(s) && s.nextTxn !in s.txns && Admissible(s, records)
    ensures var r := PutBatch(s, records, merge, callback, clock).value;
            var id := s.nextTxn;
      && r.0.txns.Keys == s.txns.Keys + {id}
      && |r.0.txns[id].records| == |records.elems|
      && r.0.txns[id].callback == callback && r.0.txns[id].merge == merge && r.0.txns[id].nfails == 0
      && (forall i :: 0 <= i < |records.elems| ==> BuiltFrom(r.0.txns[id].records[i], records.elems[i]))
      && (forall i :: 0 <= i < |records.elems| ==>
            BatchIdent(records, i) in r.0.byRecord && r.0.byRecord[BatchIdent(records, i)] == id)
      && (forall k :: k in s.byRecord ==> k in r.0.byRecord && r.0.byRecord[k] == s.byRecord[k])
  {
    var t, byRecord := PutBatchSteps(s, records, merge, callback, clock);
    FlushKeepsEnqueued(s, t, byRecord, clock);
    assert forall i :: 0 <= i < |t.records| ==> t.records[i].ident in IdentSet(t.records);
  }

  /** Flushing after an enqueue keeps the new transaction, up to its phase, and the identity map. */
  lemma FlushKeepsEnqueued(s: Bus, t: Txn, byRecord: map<string, nat>, clock: string)
    requires QueueLive(Enqueue(s, t, byRecord))
    ensures var r := Flush(Enqueue(s, t, byRecord), clock).0;
      && r.txns.Keys == s.txns.Keys + {s.nextTxn}
      && r.txns[s.nextTxn] == t.(phase := r.txns[s.nextTxn].phase)
      && r.byRecord == byRecord
  {
  }

  /**
   * A successful `putBatch` puts the new id on the end of the queue: with no
   * client it waits there and nothing is issued; with a client and a free
   * slot it is the first write issued.
   */
  lemma PutBatchQueues(s: Bus, records: JsValue, merge: Option<MergeFn>, callback: Option<CallbackId>, clock: string)
    requires QueueLive(s) && Admissible(s, records)
    ensures var r := PutBatch(s, records, merge, callback, clock).value;
      && (s.client.None? ==> r.0.putq == s.putq + [s.nextTxn] && r.1 == [])
      && (s.client.Some? && s.pending < s.maxPuts ==> |r.1| > 0 && r.1[0] == BatchPut(s.nextTxn))
  {
    var t, byRecord := PutBatchSteps(s, records, merge, callback, clock);
    var s1 := Enqueue(s, t, byRecord);
    if s.client.Some? && s.pending < s.maxPuts {
      assert s1.putq[|s1.putq| - 1] == s.nextTxn;
      IssuePopsFromEnd(s1, clock);
    }
  }

  // ---------------------------------------------------------------------------
  // flush and txnPut

  /** Pops the most recently queued id and puts it in flight (`txnPut`). */
  function IssueOne(s: Bus, now: string): (r: (Bus, Effect))
    requires QueueLive(s) && |s.putq| > 0
    ensures QueueLive(r.0) && ReadSideSame(s, r.0)
    ensures var id := s.putq[|s.putq| - 1];
      && r.0.putq == s.putq[..|s.putq| - 1]
      && r.0.pending == s.pending + 1
      && r.0.txns == s.txns[id := s.txns[id].(phase := InFlight(now))]
      && r.0.byRecord == s.byRecord && r.0.nextTxn == s.nextTxn && r.0.maxPuts == s.maxPuts
      && r.1 == BatchPut(id)
  {
    var n := |s.putq| - 1;
    var id := s.putq[n];
    var t := s.txns[id];
    (s.(putq := s.putq[..n], pending := s.pending + 1, txns := s.txns[id := t.(phase := InFlight(now))]), BatchPut(id))
  }

  /** Popping the last queued id keeps the queue exactly the queued transactions. */
  lemma IssueOneQueueResolves(s: Bus, now: string)
    requires QueueResolves(s) && |s.putq| > 0
    ensures QueueResolves(IssueOne(s, now).0)
  {
    var s' := IssueOne(s, now).0;
    var n := |s.putq| - 1;
    var id := s.putq[n];
    forall j | 0 <= j < |s'.putq|
      ensures s'.putq[j] in s'.txns && s'.txns[s'.putq[j]].phase.Queued?
    {
      assert s'.putq[j] == s.putq[j] != id;
    }
    forall k | k in s'.txns && s'.txns[k].phase.Queued?
      ensures k in s'.putq
    {
      assert k != id && k in s.putq;
      var j :| 0 <= j < |s.putq| && s.putq[j] == k;
      assert j < n && s'.putq[j] == k;
    }
  }

  lemma IssueOneKeepsInv(s: Bus, now: string)
    requires Inv(s) && s.pending < s.maxPuts && |s.putq| > 0
    ensures Inv(IssueOne(s, now).0)
  {
    var s' := IssueOne(s, now).0;
    var id := s.putq[|s.putq| - 1];
    SetPhaseKeepsShape(s, id, InFlight(now), s');
    IssueOneQueueResolves(s, now);
    assert id !in InFlightIds(s.txns);
    assert InFlightIds(s'.txns) == InFlightIds(s.txns) + {id};
  }

  /** `effects` issue the ids of `q` from its end, most recent first. */
  ghost predicate PoppedFrom(effects: seq<Effect>, q: seq<nat>)
    decreases |effects|
  {
    effects == [] || (|q| > 0 && effects[0] == BatchPut(q[|q| - 1]) && PoppedFrom(effects[1..], q[..|q| - 1]))
  }

  /** The loop of `flush`: issue while below the cap and the queue is not empty. */
  function Issue(s: Bus, now: string): (r: (Bus, seq<Effect>))
    requires QueueLive(s)
    ensures QueueLive(r.0) && ReadSideSame(s, r.0)
    ensures r.0.byRecord == s.byRecord && r.0.nextTxn == s.nextTxn && r.0.maxPuts == s.maxPuts
    ensures r.0.pending == s.pending + |r.1|
    ensures |r.0.putq| == 0 || r.0.pending >= r.0.maxPuts
    ensures |r.1| <= |s.putq| && r.0.putq == s.putq[..|s.putq| - |r.1|]
    decreases |s.putq|
  {
    if s.pending < s.maxPuts && |s.putq| > 0 then
      var (s1, e) := IssueOne(s, now);
      var (s2, es) := Issue(s1, now);
      (s2, [e] + es)
    else
      (s, [])
  }

  /** `Issue` changes only the phases of transactions. */
  lemma {:induction false} IssueChangesPhasesOnly(s: Bus, now: string)
    requires QueueLive(s)
    ensures PhasesOnlyChanged(s.txns, Issue(s, now).0.txns)
    decreases |s.putq|
  {
    if s.pending < s.maxPuts && |s.putq| > 0 {
      IssueChangesPhasesOnly(IssueOne(s, now).0, now);
    }
  }

  /**
   * Each transaction whose write is among `effects` was put in flight at
   * `now` (`txnPut` sets `tx_issued`); every other one keeps its phase.
   */
  ghost predicate IssuedAt(a: map<nat, Txn>, b: map<nat, Txn>, effects: seq<Effect>, now: string) {
    && b.Keys == a.Keys
    && forall id {:trigger b[id]} :: id in a ==> b[id].phase == (if BatchPut(id) in effects then InFlight(now) else a[id].phase)
  }

  /** `Issue` puts in flight exactly the transactions whose writes it emits. */
  lemma {:induction false} IssueMarksIssued(s: Bus, now: string)
    requires QueueLive(s)
    ensures IssuedAt(s.txns, Issue(s, now).0.txns, Issue(s, now).1, now)
    decreases |s.putq|
  {
    if s.pending < s.maxPuts && |s.putq| > 0 {
      var (s1, e) := IssueOne(s, now);
      var (s2, es) := Issue(s1, now);
      IssueMarksIssued(s1, now);
      IssuedAfterOne(s.txns, s1.txns, s2.txns, es, s.putq[|s.putq| - 1], now);
    }
  }

  /** Putting `id` in flight and then the writes `effects` puts in flight the writes of `[BatchPut(id)] + effects`. */
  lemma IssuedAfterOne(a: map<nat, Txn>, b: map<nat, Txn>, c: map<nat, Txn>, effects: seq<Effect>, id: nat, now: string)
    requires id in a && b == a[id := a[id].(phase := InFlight(now))]
    requires IssuedAt(b, c, effects, now)
    ensures IssuedAt(a, c, [BatchPut(id)] + effects, now)
  {
    forall k | k in a
      ensures c[k].phase == (if BatchPut(k) in [BatchPut(id)] + effects then InFlight(now) else a[k].phase)
    {
      assert BatchPut(k) in [BatchPut(id)] + effects <==> k == id || BatchPut(k) in effects;
    }
  }

  /** The ids `Issue` puts in flight are taken from the end of the queue, most recent first. */
  lemma {:induction false} IssuePopsFromEnd(s: Bus, now: string)
    requires QueueLive(s)
    ensures PoppedFrom(Issue(s, now).1, s.putq)
    decreases |s.putq|
  {
    if s.pending < s.maxPuts && |s.putq| > 0 {
      var (s1, e) := IssueOne(s, now);
      var es := Issue(s1, now).1;
      IssuePopsFromEnd(s1, now);
      assert ([e] + es)[1..] == es;
    }
  }

  lemma {:induction false} IssueKeepsInv(s: Bus, now: string)
    requires Inv(s)
    ensures Inv(Issue(s, now).0)
    decreases |s.putq|
  {
    if s.pending < s.maxPuts && |s.putq| > 0 {
      IssueOneKeepsInv(s, now);
      IssueKeepsInv(IssueOne(s, now).0, now);
    }
  }

  /**
   * `flush(now)`: with no client nothing happens; otherwise queued ids are
   * taken from the END of the queue (most recent first) and put in flight
   * until the queue is empty or the in-flight count reaches the cap.
   */
  function Flush(s: Bus, now: string): (r: (Bus, seq<Effect>))
    requires QueueLive(s)
    ensures QueueLive(r.0) && ReadSideSame(s, r.0)
    ensures s.client.None? ==> r.0 == s && r.1 == []
    ensures r.0.byRecord == s.byRecord && r.0.nextTxn == s.nextTxn && r.0.maxPuts == s.maxPuts
    ensures PhasesOnlyChanged(s.txns, r.0.txns)
    ensures r.0.pending == s.pending + |r.1|
    ensures s.client.Some? ==> |r.0.putq| == 0 || r.0.pending >= r.0.maxPuts
    ensures |r.1| <= |s.putq| && r.0.putq == s.putq[..|s.putq| - |r.1|]
    ensures IssuedAt(s.txns, r.0.txns, r.1, now)
  {
    if s.client.None? then (s, [])
    else
      IssueChangesPhasesOnly(s, now);
      IssueMarksIssued(s, now);
      Issue(s, now)
  }

  /** `flush` keeps the invariant; in particular the in-flight count stops exactly at the cap. */
  lemma FlushKeepsInv(s: Bus, now: string)
    requires Inv(s)
    ensures Inv(Flush(s, now).0)
    ensures s.client.Some? ==> |Flush(s, now).0.putq| == 0 || Flush(s, now).0.pending == s.maxPuts
    ensures PoppedFrom(Flush(s, now).1, s.putq)
  {
    if s.client.Some? {
      IssueKeepsInv(s, now);
      IssuePopsFromEnd(s, now);
    }
  }

  /** Writes issued from the end of `q` name exactly the ids of the tail they take. */
  lemma {:induction false} PoppedWrites(effects: seq<Effect>, q: seq<nat>)
    requires PoppedFrom(effects, q)
    ensures |effects| <= |q|
    ensures forall id :: BatchPut(id) in effects <==> id in q[|q| - |effects|..]
    decreases |effects|
  {
    if effects != [] {
      var n := |q| - 1;
      PoppedWrites(effects[1..], q[..n]);
      assert effects == [effects[0]] + effects[1..];
      assert q[|q| - |effects|..] == q[..n][n - |effects[1..]|..] + [q[n]];
    }
  }

  /**
   * `flush` puts in flight at `now` exactly the transactions whose ids it
   * takes off the end of the queue; every other transaction keeps its phase.
   */
  lemma FlushIssuesPopped(s: Bus, now: string)
    requires QueueLive(s)
    ensures var r := Flush(s, now);
      forall id :: id in s.txns ==>
        && id in r.0.txns
        && r.0.txns[id].phase == (if id in s.putq[|s.putq| - |r.1|..] then InFlight(now) else s.txns[id].phase)
  {
    var r := Flush(s, now);
    if s.client.Some? {
      IssuePopsFromEnd(s, now);
      PoppedWrites(r.1, s.putq);
    } else {
      assert s.putq[|s.putq|..] == [];
    }
    forall id | id in s.txns
      ensures r.0.txns[id].phase == (if id in s.putq[|s.putq| - |r.1|..] then InFlight(now) else s.txns[id].phase)
    {
      assert r.0.txns[id].phase == (if BatchPut(id) in r.1 then InFlight(now) else s.txns[id].phase);
    }
  }

  // ---------------------------------------------------------------------------
  // txnFini

  /** The transaction is gone from both maps and its callback, if any, was called once. */
  ghost predicate Finalized(s: Bus, s': Bus, effects: seq<Effect>, id: nat, err: Option<BusError>, meta: Option<JsValue>)
    requires id in s.txns
  {
    var t := s.txns[id];
    && id !in s'.txns
    && (forall i :: 0 <= i < |t.records| ==> t.records[i].ident !in s'.byRecord)
    && (forall k :: k in s.txns && k != id ==> k in s'.txns && s'.txns[k] == s.txns[k])
    && s'.txns.Keys == s.txns.Keys - {id}
    && (forall x :: x in s.byRecord && s.byRecord[x] != id ==> x in s'.byRecord && s'.byRecord[x] == s.byRecord[x])
    && s'.putq == s.putq && s'.pending == s.pending
    && effects == (if t.callback.Some? then [Invoke(t.callback.value, err, meta)] else [])
  }

  /**
   * `txnFini(txn, err, meta)`: removes the transaction and every identity it
   * holds, and only then calls its callback with `(err, meta)`.
   */
  function Fini(s: Bus, id: nat, err: Option<BusError>, meta: Option<JsValue>): (r: (Bus, seq<Effect>))
    requires id in s.txns && OwnsIdents(s, id)
    ensures ReadSideSame(s, r.0) && r.0.maxPuts == s.maxPuts && r.0.nextTxn == s.nextTxn
    ensures Finalized(s, r.0, r.1, id, err, meta)
  {
    var t := s.txns[id];
    assert forall i :: 0 <= i < |t.records| ==> t.records[i].ident in IdentSet(t.records);
    (s.(txns := s.txns - {id}, byRecord := s.byRecord - IdentSet(t.records)),
     if t.callback.Some? then [Invoke(t.callback.value, err, meta)] else [])
  }

  lemma FiniKeepsInv(s: Bus, id: nat, err: Option<BusError>, meta: Option<JsValue>)
    requires Inv(s)
    requires id in s.txns && !s.txns[id].phase.Queued? && !s.txns[id].phase.InFlight?
    ensures Inv(Fini(s, id, err, meta).0)
  {
    var t := s.txns[id];
    IdentSetOwned(s, id);
    var s' := Fini(s, id, err, meta).0;
    assert InFlightIds(s'.txns) == InFlightIds(s.txns);
    assert IdentsOwned(s') by {
      forall k, i | k in s'.txns && 0 <= i < |s'.txns[k].records|
        ensures s'.txns[k].records[i].ident in s'.byRecord
      {
        assert s.byRecord[s.txns[k].records[i].ident] == k;
      }
    }
    assert QueueResolves(s') by {
      forall j | 0 <= j < |s'.putq|
        ensures s'.putq[j] in s'.txns
      {
        assert s.putq[j] != id;
      }
    }
  }

  // ---------------------------------------------------------------------------
  // retry

  /** The transaction is still live, its failure count went up by one, and its timer runs. */
  ghost predicate Retried(s: Bus, s': Bus, effects: seq<Effect>, id: nat)
    requires id in s.txns
  {
    var t := s.txns[id];
    && id in s'.txns
    && s'.txns[id] == t.(nfails := t.nfails + 1, phase := Waiting(RetryDelay(t.nfails + 1)))
    && s'.txns.Keys == s.txns.Keys
    && (forall k :: k in s.txns && k != id ==> s'.txns[k] == s.txns[k])
    && s'.byRecord == s.byRecord && s'.putq == s.putq && s'.pending == s.pending
    && effects == [StartTimer(id, RetryDelay(t.nfails + 1))]
  }

  /** `txnRetry`: counts the failure and starts the backoff timer. */
  function Retry(s: Bus, id: nat): (r: (Bus, seq<Effect>))
    requires id in s.txns
    ensures ReadSideSame(s, r.0) && r.0.maxPuts == s.maxPuts && r.0.nextTxn == s.nextTxn
    ensures Retried(s, r.0, r.1, id)
  {
    var t := s.txns[id];
    var d := RetryDelay(t.nfails + 1);
    (s.(txns := s.txns[id := t.(nfails := t.nfails + 1, phase := Waiting(d))]), [StartTimer(id, d)])
  }

  lemma RetryKeepsInv(s: Bus, id: nat)
    requires Inv(s)
    requires id in s.txns && !s.txns[id].phase.Queued? && !s.txns[id].phase.InFlight?
    ensures Inv(Retry(s, id).0)
  {
    var t := s.txns[id];
    ReplaceTxnKeepsInv(s, id, t.(nfails := t.nfails + 1, phase := Waiting(RetryDelay(t.nfails + 1))));
  }

  /** The retry timer fired: the transaction's id goes back on the end of the queue. */
  function OnRetryTimer(s: Bus, id: nat): (s': Bus)
    requires id in s.txns && s.txns[id].phase.Waiting?
    ensures ReadSideSame(s, s') && s'.maxPuts == s.maxPuts && s'.nextTxn == s.nextTxn
    ensures s'.putq == s.putq + [id]
    ensures s'.txns == s.txns[id := s.txns[id].(phase := Queued)]
    ensures s'.byRecord == s.byRecord && s'.pending == s.pending
  {
    s.(txns := s.txns[id := s.txns[id].(phase := Queued)], putq := s.putq + [id])
  }

  lemma OnRetryTimerKeepsInv(s: Bus, id: nat)
    requires Inv(s)
    requires id in s.txns && s.txns[id].phase.Waiting?
    ensures Inv(OnRetryTimer(s, id))
  {
    var s' := OnRetryTimer(s, id);
    SetPhaseKeepsShape(s, id, Queued, s');
    assert InFlightIds(s'.txns) == InFlightIds(s.txns);
    AppendKeepsQueue(s, id, s.txns[id].(phase := Queued), s');
  }

  // ---------------------------------------------------------------------------
  // completion and error routing

  /** The first record of the batch whose bucket and key are the conflicting ones. */
  function FindConflict(records: seq<Record>, bucket: string, key: string): (r: Option<nat>)
    ensures r.Some? ==> r.value < |records| && records[r.value].bucket == bucket && records[r.value].key == key
    ensures r.Some? ==> forall j :: 0 <= j < r.value ==> !(records[j].bucket == bucket && records[j].key == key)
    ensures r.None? ==> forall j :: 0 <= j < |records| ==> !(records[j].bucket == bucket && records[j].key == key)
  {
    if records == [] then None
    else if records[0].bucket == bucket && records[0].key == key then Some(0)
    else match FindConflict(records[1..], bucket, key)
      case None => None
      case Some(j) => Some(j + 1)
  }

  /** The conflict routing applies: a conflict, a merge function, and a named record. */
  predicate ConflictNamed(t: Txn, err: StoreError) {
    err.name == ConflictName && t.merge.Some? && Given(err.bucket) && Given(err.key)
  }

  /**
   * Where a failed write goes: transient names retry; other names, a conflict
   * without a merge function, a conflict that does not name its record, or
   * one naming a record not in the batch, finalize with the error; a conflict
   * on the record at `i` of the batch moves to `Fetching(i, err)` and asks for
   * that record with the cache bypassed.
   */
  ghost predicate ErrorRouted(s: Bus, s': Bus, effects: seq<Effect>, id: nat, err: StoreError)
    requires id in s.txns
  {
    var t := s.txns[id];
    && (err.name in TransientNames ==> Retried(s, s', effects, id))
    && (err.name !in TransientNames && !ConflictNamed(t, err) ==>
          Finalized(s, s', effects, id, Some(StoreFailure(err)), None))
    && (ConflictNamed(t, err) ==>
          var found := FindConflict(t.records, err.bucket.value, err.key.value);
          && (found.None? ==> Finalized(s, s', effects, id, Some(StoreFailure(err)), None))
          && (found.Some? ==>
                && s'.txns == s.txns[id := t.(phase := Fetching(found.value, err))]
                && s'.putq == s.putq && s'.byRecord == s.byRecord && s'.pending == s.pending
                && effects == [GetObject(id, err.bucket.value, err.key.value, true)]))
  }

  /**
   * `txnHandleError(txn, err)`, with transient errors retried and NOT
   * finalized: transient names retry; other names, a conflict without a
   * merge function, a conflict that does not name its record, or one naming
   * a record not in the batch, finalize with the error; a conflict on a
   * record of the batch starts an uncached re-fetch of that record.
   */
  function HandleError(s: Bus, id: nat, err: StoreError): (r: (Bus, seq<Effect>))
    requires id in s.txns && s.txns[id].phase.Idle? && OwnsIdents(s, id)
    ensures ReadSideSame(s, r.0) && r.0.maxPuts == s.maxPuts && r.0.nextTxn == s.nextTxn
    ensures ErrorRouted(s, r.0, r.1, id, err)
  {
    var t := s.txns[id];
    if err.name in TransientNames then Retry(s, id)
    else if err.name != ConflictName || t.merge.None? then Fini(s, id, Some(StoreFailure(err)), None)
    else if !Given(err.bucket) || !Given(err.key) then Fini(s, id, Some(StoreFailure(err)), None)
    else match FindConflict(t.records, err.bucket.value, err.key.value)
      case None => Fini(s, id, Some(StoreFailure(err)), None)
      case Some(i) =>
        (s.(txns := s.txns[id := t.(phase := Fetching(i, err))]), [GetObject(id, err.bucket.value, err.key.value, true)])
  }

  lemma HandleErrorKeepsInv(s: Bus, id: nat, err: StoreError)
    requires Inv(s)
    requires id in s.txns && s.txns[id].phase.Idle?
    ensures Inv(HandleError(s, id, err).0)
  {
    IdentSetOwned(s, id);
    var t := s.txns[id];
    if err.name in TransientNames {
      RetryKeepsInv(s, id);
    } else if err.name != ConflictName || t.merge.None? || !Given(err.bucket) || !Given(err.key) {
      FiniKeepsInv(s, id, Some(StoreFailure(err)), None);
    } else {
      match FindConflict(t.records, err.bucket.value, err.key.value)
      case None =>
        FiniKeepsInv(s, id, Some(StoreFailure(err)), None);
      case Some(i) =>
        ReplaceTxnKeepsInv(s, id, t.(phase := Fetching(i, err)));
    }
  }

  /** The state right after a completion: the counter gives back one unit and the transaction is idle. */
  function Complete(s: Bus, id: nat): (s': Bus)
    requires id in s.txns && s.txns[id].phase.InFlight? && s.pending >= 1
    ensures ReadSideSame(s, s')
    ensures s'.pending + 1 == s.pending && s'.putq == s.putq && s'.byRecord == s.byRecord
    ensures s'.txns == s.txns[id := s.txns[id].(phase := Idle)]
    ensures s'.maxPuts == s.maxPuts && s'.nextTxn == s.nextTxn
  {
    s.(pending := s.pending - 1, txns := s.txns[id := s.txns[id].(phase := Idle)])
  }

  lemma CompleteKeepsInv(s: Bus, id: nat)
    requires Inv(s)
    requires id in s.txns && s.txns[id].phase.InFlight?
    ensures s.pending >= 1 && Inv(Complete(s, id))
  {
    InFlightCounted(s, id);
    var s' := Complete(s, id);
    SetPhaseKeepsShape(s, id, Idle, s');
    SetPhaseKeepsQueue(s, id, Idle, s');
    assert InFlightIds(s'.txns) == InFlightIds(s.txns) - {id};
  }

  /**
   * The completion of a `batchPut` issued by `txnPut`: the in-flight count
   * drops by one, then success finalizes with `(null, meta)` and failure is
   * routed by `HandleError`. A completion does not flush the queue.
   */
  function OnPutDone(s: Bus, id: nat, outcome: PutOutcome): (r: (Bus, seq<Effect>))
    requires Inv(s)
    requires id in s.txns && s.txns[id].phase.InFlight?
    ensures s.pending >= 1
    ensures ReadSideSame(s, r.0) && r.0.maxPuts == s.maxPuts
    ensures r.0.pending == s.pending - 1 && r.0.putq == s.putq
    ensures outcome.PutOk? ==> Finalized(Complete(s, id), r.0, r.1, id, None, Some(outcome.meta))
    ensures outcome.PutFailed? ==> ErrorRouted(Complete(s, id), r.0, r.1, id, outcome.err)
  {
    InFlightCounted(s, id);
    IdentSetOwned(s, id);
    var s1 := Complete(s, id);
    assert OwnsIdents(s1, id);
    match outcome
    case PutOk(meta) => Fini(s1, id, None, Some(meta))
    case PutFailed(err) => HandleError(s1, id, err)
  }

  /**
   * The same outcomes in terms of the transaction as it was in flight: a
   * success drops it and its identities and calls back with the metadata; a
   * transient failure counts the failure and starts the backoff timer.
   */
  lemma OnPutDoneEffects(s: Bus, id: nat, outcome: PutOutcome)
    requires Inv(s)
    requires id in s.txns && s.txns[id].phase.InFlight?
    ensures var r := OnPutDone(s, id, outcome);
      outcome.PutOk? ==>
        && id !in r.0.txns && r.0.txns.Keys == s.txns.Keys - {id}
        && (forall i :: 0 <= i < |s.txns[id].records| ==> s.txns[id].records[i].ident !in r.0.byRecord)
        && r.1 == (if s.txns[id].callback.Some? then [Invoke(s.txns[id].callback.value, None, Some(outcome.meta))] else [])
    ensures var r := OnPutDone(s, id, outcome);
      outcome.PutFailed? && outcome.err.name in TransientNames ==>
        && id in r.0.txns && r.0.txns[id].phase == Waiting(RetryDelay(s.txns[id].nfails + 1))
        && r.0.txns[id].nfails == s.txns[id].nfails + 1
        && r.0.byRecord == s.byRecord
        && r.1 == [StartTimer(id, RetryDelay(s.txns[id].nfails + 1))]
  {
    CompleteKeepsInv(s, id);
    var s1 := Complete(s, id);
    var r := OnPutDone(s, id, outcome);
    if outcome.PutOk? {
      FinalizedAfterComplete(s, s1, r.0, r.1, id, outcome.meta);
    } else if outcome.err.name in TransientNames {
      RetriedAfterComplete(s, s1, r.0, r.1, id);
    }
  }

  /** What `Finalized` says about a completed write, in terms of the transaction before completion. */
  lemma FinalizedAfterComplete(s: Bus, s1: Bus, s': Bus, effects: seq<Effect>, id: nat, meta: JsValue)
    requires id in s.txns && id in s1.txns && s1.txns[id] == s.txns[id].(phase := Idle)
    requires s1.txns.Keys == s.txns.Keys
    requires Finalized(s1, s', effects, id, None, Some(meta))
    ensures id !in s'.txns && s'.txns.Keys == s.txns.Keys - {id}
    ensures forall i :: 0 <= i < |s.txns[id].records| ==> s.txns[id].records[i].ident !in s'.byRecord
    ensures effects == (if s.txns[id].callback.Some? then [Invoke(s.txns[id].callback.value, None, Some(meta))] else [])
  {
  }

  /** What `Retried` says about a completed write, in terms of the transaction before completion. */
  lemma RetriedAfterComplete(s: Bus, s1: Bus, s': Bus, effects: seq<Effect>, id: nat)
    requires id in s.txns && id in s1.txns && s1.txns[id] == s.txns[id].(phase := Idle)
    requires s1.byRecord == s.byRecord
    requires Retried(s1, s', effects, id)
    ensures id in s'.txns && s'.txns[id].phase == Waiting(RetryDelay(s.txns[id].nfails + 1))
    ensures s'.txns[id].nfails == s.txns[id].nfails + 1
    ensures s'.byRecord == s.byRecord
    ensures effects == [StartTimer(id, RetryDelay(s.txns[id].nfails + 1))]
  {
  }

  lemma OnPutDoneKeepsInv(s: Bus, id: nat, outcome: PutOutcome)
    requires Inv(s)
    requires id in s.txns && s.txns[id].phase.InFlight?
    ensures Inv(OnPutDone(s, id, outcome).0)
  {
    CompleteKeepsInv(s, id);
    var s1 := Complete(s, id);
    match outcome
    case PutOk(meta) => FiniKeepsInv(s1, id, None, Some(meta));
    case PutFailed(err) => HandleErrorKeepsInv(s1, id, err);
  }

  /** The record at `i` after a successful merge: the merged value, predicated on the fetched `_etag`. */
  function Refreshed(r: Record, merged: JsValue, fetched: JsValue): (r': Record)
    ensures r'.value == merged && r'.ident == r.ident && r'.bucket == r.bucket && r'.key == r.key
    ensures r.options.Obj? ==> Get(r'.options, "etag") == Get(fetched, "_etag")
    ensures r.options.Obj? ==> forall k :: k in r.options.fields && k != "etag" ==> Get(r'.options, k) == r.options.fields[k]
    ensures !r.options.Obj? ==> r'.options == r.options
  {
    r.(value := merged, options := Set(r.options, "etag", Get(fetched, "_etag")))
  }

  /**
   * The completion of the uncached re-fetch after a conflict on record
   * `index`: a failed fetch, or a merge that returns an error, finalizes with
   * an annotated error; otherwise the record's value becomes the merge of its
   * old value with the fetched object, its write predicate becomes the
   * fetched `_etag`, and the transaction is retried.
   */
  function OnConflictFetched(s: Bus, id: nat, outcome: FetchOutcome): (r: (Bus, seq<Effect>))
    requires Inv(s)
    requires id in s.txns && s.txns[id].phase.Fetching?
    ensures ReadSideSame(s, r.0) && r.0.maxPuts == s.maxPuts && r.0.putq == s.putq && r.0.pending == s.pending
    ensures outcome.FetchFailed? ==> Finalized(s, r.0, r.1, id, Some(Wrapped(FetchFailedMessage, outcome.err)), None)
    ensures outcome.Fetched? ==>
      var t := s.txns[id];
      var i := t.phase.index;
      match t.merge.value(t.records[i].value, outcome.record)
      case MergeFailed(_) =>
        Finalized(s, r.0, r.1, id, Some(Wrapped(MergeFailedMessage, t.phase.conflict)), None)
      case Merged(v) =>
        && Retried(s.(txns := s.txns[id := t.(records := t.records[i := Refreshed(t.records[i], v, outcome.record)])]), r.0, r.1, id)
        && id in r.0.txns
        && r.0.txns[id].records == t.records[i := Refreshed(t.records[i], v, outcome.record)]
        && r.0.txns[id].nfails == t.nfails + 1
        && r.0.txns[id].phase == Waiting(RetryDelay(t.nfails + 1))
        && r.0.byRecord == s.byRecord
        && r.1 == [StartTimer(id, RetryDelay(t.nfails + 1))]
  {
    IdentSetOwned(s, id);
    var t := s.txns[id];
    var i := t.phase.index;
    match outcome
    case FetchFailed(e2) =>
      Fini(s, id, Some(Wrapped(FetchFailedMessage, e2)), None)
    case Fetched(record) =>
      match t.merge.value(t.records[i].value, record)
      case MergeFailed(_) =>
        Fini(s, id, Some(Wrapped(MergeFailedMessage, t.phase.conflict)), None)
      case Merged(v) =>
        var s1 := s.(txns := s.txns[id := t.(records := t.records[i := Refreshed(t.records[i], v, record)])]);
        Retry(s1, id)
  }

  lemma OnConflictFetchedKeepsInv(s: Bus, id: nat, outcome: FetchOutcome)
    requires Inv(s)
    requires id in s.txns && s.txns[id].phase.Fetching?
    ensures Inv(OnConflictFetched(s, id, outcome).0)
  {
    IdentSetOwned(s, id);
    var t := s.txns[id];
    var i := t.phase.index;
    match outcome
    case FetchFailed(e2) =>
      FiniKeepsInv(s, id, Some(Wrapped(FetchFailedMessage, e2)), None);
    case Fetched(record) =>
      match t.merge.value(t.records[i].value, record)
      case MergeFailed(_) =>
        FiniKeepsInv(s, id, Some(Wrapped(MergeFailedMessage, t.phase.conflict)), None);
      case Merged(v) =>
        var t1 := t.(records := t.records[i := Refreshed(t.records[i], v, record)]);
        ReplaceTxnKeepsInv(s, id, t1);
        RetryKeepsInv(s.(txns := s.txns[id := t1]), id);
  }
}
